=== FILE: README.md ===
# SalonCare scheduling core in Dafny

This project models the scheduling core of SalonCare, a salon booking desk written in Java
with a Swing front end. The core is the appointment store `models/AppointmentLinkedList`.
It is a singly linked list kept in ascending order of each appointment's `LocalDateTime`.
Around it the model covers:

- the entity records: `Appointment`, `Client`, `CancellationRequest` and `PendingAppointmentRequest`;
- the state that `storage/DataManager` seeds;
- the booking decisions behind the staff dashboard's buttons (add, update, edit, cancel, list and search);
- the older list revision in package `components`;
- the mock sign-up validator.

Everything is an immutable datatype plus pure functions, apart from three small methods in
the older list, two of them with loops.

- `Wrappers` (wrappers.dfy): `Option` stands in for Java's `null`. `Result` carries an error return.
- `Text` (text.dfy): `String.trim`, ASCII lower-casing and `equalsIgnoreCase`, `String.contains`,
  `endsWith`, `String.length` counted in UTF-16 units, and the `%02d` / `parseInt` pair, with
  the round trip between them.
- `Time` (time.dfy): `LocalDate` and `LocalDateTime` as subset types of field records.
  `isBefore` is the lexicographic order on (date, hour, minute, second, nano). `equals` is
  datatype equality. `plusDays` is repeated `NextDay` under the ISO leap-year rule. An
  independent day count (`DayNumber`) and nanosecond position (`EpochNanos`) pin both down:
  `NextDay` moves exactly one day on, and `isBefore` is the order of positions on the time
  line. The module also has `LocalDateTime.toString` and the `yyyy-MM-dd HH:mm` display format.
- `Models` (models.dfy): the entity records. A datatype field is the Java getter. A setter
  is a function returning the updated record. Records without setters cannot change, since
  datatype values are immutable.
- `Store` (store.dfy): `AppointmentList(items, size)` is the chain of nodes plus the
  `size` counter. `Valid` says the counter matches the chain and the chain is sorted.
  `addSorted`, `removeById` and `size` work on the list. `findById`, `toList`, `filter`,
  `hasConflict` and `searchByClientName` read its contents. `NoDoubleBooking` is the state
  `hasConflict` guards: no client holds two appointments at one instant.
- `DataManager` (data_manager.dfy): the three final fields and `seed()`. The two
  `LocalDateTime.now()` readings of `seed()` are two parameters.
- `StaffDashboard` (staff_dashboard.dfy): each action handler is a function. It takes the
  data manager and the form contents, and returns the new data manager plus the outcome
  its dialog reports. The form records whether its date was put there by the program or
  committed by the user. Two handler steps are modelled twice, as written and corrected
  (see "## Findings"): the update's client dialog and the date conversion. The rest of the
  model uses the corrected versions.
- `LegacyList` (legacy_list.dfy): `components/Appointment` and `components/AppointmentLinkedList`.
- `Signup` (signup.dfy): the Sign Up action listener.

Nondeterminism becomes parameters:
- `LocalDateTime.now()` is a `now` argument.
- Each `UUID.randomUUID()` is a fresh-id argument.
- `getClientByEmailOrPhone` and `getServiceByName` are function arguments. The dashboard
  calls them, but `storage/DataManager.java` does not define them.

Where the code and the design description differ, the model follows the code:
- No business-hours or past-date check exists. The only booking checks are the empty-field
  check, the service lookup, the `LocalTime.of` range, the missing date and the exact-instant
  conflict.
- `models/Appointment` has no cancellation-status field.
- The older list appends at the tail although its header comment says it sorts.

## Model

| member | source | states |
|---|---|---|
| Text.Trim | gui/SalonStaffDashBoard.java:270-277 | the trimmed text is an infix of the input with only chars up to U+0020 around it, neither end of it is such a char, and it is empty exactly when every char of the input is one |
| Text.LowerChar | models/AppointmentLinkedList.java:108-110 | an ASCII capital becomes the character 32 code points on, its lower-case letter; every other character is kept, so the result is never a capital |
| Text.ToLower | models/AppointmentLinkedList.java:108-110 | lower-casing keeps the length, folds each ASCII capital and leaves no capital in the result |
| Text.ContainsFrom | models/AppointmentLinkedList.java:110 | the scan from position i is true exactly when the key occurs at some position at or after i |
| Text.Contains | models/AppointmentLinkedList.java:110 | `contains` is true exactly when the key occurs at some position of the text |
| Text.ContainsEmpty | models/AppointmentLinkedList.java:108 | the empty key occurs in every text |
| Text.PadDigitsRoundTrip | gui/SalonStaffDashBoard.java:636-637 | parsing a `%02d`-printed number gives back the number, so a combo item reads back as the value it was made from |
| Text.PadDigitsLength | gui/SalonStaffDashBoard.java:139 | a value below 10^w printed zero-padded to width w takes exactly w characters |
| Text.Utf16Length | gui/SignupFrame.java:215 | `String.length()` counts UTF-16 units: at least one and at most two per character |
| Text.Utf16LengthOfBmp | gui/SignupFrame.java:215 | a text inside the Basic Multilingual Plane has as many UTF-16 units as characters |
| Text.Utf16LengthOfSupplementary | gui/SignupFrame.java:215 | a text of k characters outside the Basic Multilingual Plane has 2k UTF-16 units |
| Time.IsBeforeIsEpochOrder | models/AppointmentLinkedList.java:31-36 | `isBefore`, compared field by field, holds exactly when the first instant lies earlier on the time line, counted in nanoseconds from a fixed origin; equal positions are exactly equal instants |
| Time.NextDay | storage/DataManager.java:26 | the next calendar day is one day number on and strictly after the given date, and it is the 1st exactly when the given day ends its month |
| Time.NextDayIsImmediate | storage/DataManager.java:26 | no date lies strictly between a day and the next, so `NextDay` skips nothing |
| Time.DayNumberOrder | storage/DataManager.java:26-28 | the calendar order of dates is the order of their day numbers, and equal day numbers are equal dates |
| Time.PlusDays | storage/DataManager.java:26-28 | `plusDays(n)` keeps the time of day and lands exactly n day numbers on, strictly after the start for n > 0 |
| Time.PlusDaysLater | storage/DataManager.java:26-28 | fewer days added gives an earlier instant, so now+1 day is before now+2 days |
| Time.PlusDaysKeepsOrder | storage/DataManager.java:26-28 | adding the same number of days to two instants keeps which one is earlier, in both directions |
| Time.IsoTime | models/Appointment.java:60 | `LocalTime.toString` is `HH:mm`, then `:ss` exactly when the seconds or nanos are non-zero, then '.' and the fraction when the nanos are non-zero, with the seconds reading back |
| Time.IsoFraction | models/Appointment.java:60 | the fraction has 3, 6 or 9 digits, the fewest that hold the nanos exactly, and reads back as the milli-, micro- or nanoseconds |
| Time.IsoString | models/Appointment.java:60 | `LocalDateTime.toString` ends with a digit; for years 0..9999 it starts with the `yyyy-MM-dd` date, a 'T' and the `HH:mm` fields; years outside that range start with a sign |
| Time.IsoStringTime | models/Appointment.java:60 | the text ends with the whole ISO time, so seconds and fraction are there whenever `IsoTime` prints them; for years 0..9999 everything after the 'T' is that time |
| Time.IsoStringFields | models/Appointment.java:60 | for years 0..9999 the text has its separators in place and the year, month, day, hour and minute fields read back as the values they were printed from |
| Time.DisplayString | components/Appointment.java:20 | `yyyy-MM-dd HH:mm` ends with a digit; for years of era up to 9999 it is 16 characters: the date text, a space and the `HH:mm` fields |
| Time.DisplayStringFields | components/Appointment.java:20 | for years of era up to 9999 the `yyyy-MM-dd HH:mm` text is 16 characters with separators in place, and each numeric field reads back as the year of era, month, day, hour and minute |
| Models.ClientToString | models/Client.java:33-36 | the text is the name, " (", the id and ")" |
| Models.NewAppointment | models/Appointment.java:14-20 | the constructor stores id, client, service and date-time as given and starts unconfirmed |
| Models.SetConfirmed | models/Appointment.java:42-44 | only `confirmed` changes; id, client, service and date-time are kept |
| Models.SetClient | models/Appointment.java:46-48 | only the client changes |
| Models.SetService | models/Appointment.java:50-52 | only the service changes |
| Models.SetDateTime | models/Appointment.java:54-56 | only the date-time changes |
| Models.AppointmentToString | models/Appointment.java:58-62 | the text starts with the id-to-date-time summary and ends with " \| CONFIRMED" if and only if the appointment is confirmed |
| Models.SummaryText | models/Appointment.java:60 | for a non-empty last part, the text is laid out as id, " \| ", client name, " \| ", service name, " \| " and the last part, each at the offset the earlier lengths add up to |
| Models.AppointmentSummary | models/Appointment.java:60 | the summary is the id, " \| ", the client's name, " \| ", the service's name, " \| " and the date-time's `toString`, in that order, and its last character is a digit |
| Models.NewCancellationRequest | models/CancellationRequest.java:16-26 | the constructor stores the six arguments unchanged and stamps the request with the clock value |
| Models.ShownReason | models/CancellationRequest.java:68 | the shown reason is never empty: "No reason provided" for an empty reason, the reason itself otherwise |
| Models.ShownMessage | models/PendingAppointmentRequest.java:51 | the shown message is never empty: "N/A" for an empty message, the message itself otherwise |
| Store.SlotFor | models/AppointmentLinkedList.java:31-37 | the link position is the first element strictly later than the new one, or the tail; no element in front of it is strictly later |
| Store.Insert | models/AppointmentLinkedList.java:29-40 | the new chain is the old chain with the new appointment spliced in at that slot |
| Store.InsertContents | models/AppointmentLinkedList.java:30-41 | inserting adds exactly one element and keeps every old one, as a multiset |
| Store.InsertKeepsSorted | models/AppointmentLinkedList.java:29-42 | an ordered chain stays ordered after `addSorted` |
| Store.InsertIsStable | models/AppointmentLinkedList.java:31-38 | on an ordered chain every existing element with an equal time ends up in front of the new one, and everything behind it is strictly later |
| Store.AddSorted | models/AppointmentLinkedList.java:29-42 | `size` grows by one and the chain is the old chain with the new appointment spliced in at its slot (`Insert`), so the contents gain exactly the new appointment; the invariant is kept |
| Store.FirstIndexOf | models/AppointmentLinkedList.java:64-71 | the position found carries the id and no earlier one does; it is past the end exactly when no element has the id |
| Store.RemoveFirst | models/AppointmentLinkedList.java:44-62 | the unlinking walk reports a match exactly when the id is present, and then deletes only the first element with it |
| Store.RemoveById | models/AppointmentLinkedList.java:44-62 | true iff some element has the id; then only the first such element is unlinked and `size` drops by one; otherwise nothing changes; the invariant is kept |
| Store.DeleteKeepsSorted | models/AppointmentLinkedList.java:44-62 | deleting any one position of an ordered chain leaves it ordered |
| Store.RemoveByIdContents | models/AppointmentLinkedList.java:47-57 | the only element that leaves is the first one with the id |
| Store.FindById | models/AppointmentLinkedList.java:64-72 | the result is the first element with the id, or none exactly when no element has it |
| Store.RemovedIdIsGone | models/AppointmentLinkedList.java:44-72 | when ids are unique, after `removeById` no element has that id and `findById` finds nothing |
| Store.Size | models/AppointmentLinkedList.java:22-26 | on a valid list the counter equals the number of nodes |
| Store.ToList | models/AppointmentLinkedList.java:74-82 | the elements in chain order; on a valid list there are `size` of them, ordered by time |
| Store.Filter | models/AppointmentLinkedList.java:84-93 | every kept element satisfies the predicate |
| Store.FilterContents | models/AppointmentLinkedList.java:84-93 | each element satisfying the predicate is kept as often as it occurs, and no other element is |
| Store.FilterAppend | models/AppointmentLinkedList.java:84-93 | filtering commutes with concatenation, so kept elements keep their list order |
| Store.FilterKeepsSorted | models/AppointmentLinkedList.java:84-93 | filtering an ordered chain gives an ordered list |
| Store.FilterKeepsAll | models/AppointmentLinkedList.java:84-93 | when every element satisfies the predicate the filter returns the whole chain unchanged |
| Store.HasConflict | models/AppointmentLinkedList.java:95-103 | true iff some element has the client's id and exactly the given instant |
| Store.AddSortedKeepsNoDoubleBooking | models/AppointmentLinkedList.java:29-42 | `addSorted` of an appointment for which `hasConflict` finds no clash keeps every client free of two appointments at one instant |
| Store.RemoveByIdKeepsNoDoubleBooking | models/AppointmentLinkedList.java:44-62 | `removeById` keeps every client free of two appointments at one instant |
| Store.SearchKey | models/AppointmentLinkedList.java:108 | a null search text becomes "", any other is lower-cased |
| Store.SearchByClientName | models/AppointmentLinkedList.java:105-115 | the result holds exactly the elements whose lower-cased client name contains the key, with their multiplicity; each result matches; it is ordered by time when the chain is |
| Store.SearchIsFilter | models/AppointmentLinkedList.java:105-115 | the search is the chain filtered by "the lower-cased client name contains the key", so the matches come back in chain order |
| Store.SearchWithoutKeyKeepsAll | models/AppointmentLinkedList.java:108-110 | a null or empty search text returns the whole chain |
| DataManager.Seed | storage/DataManager.java:13-29 | for any two clock readings, two clients and three services in order, and a valid store of size 2 holding exactly A001 (Alice, Haircut, a day after the first reading) and A002 (Ben, Facial, two days after the second), both unconfirmed |
| DataManager.SeedStore | storage/DataManager.java:25-28 | when the clock does not run backwards, the chain after the two `addSorted` calls is exactly A001 then A002 |
| DataManager.SeedInitialState | storage/DataManager.java:13-29 | when the clock does not run backwards between the two readings: clients C001 Alice and C002 Ben, services S001-S003, and a valid store of size 2 listing A001 before A002 with their clients, services and instants, both unconfirmed |
| StaffDashboard.To24Hour | gui/SalonStaffDashBoard.java:297-302 | an hour 1..12 maps into 0..23 with the same value modulo 12, and the result is noon or later exactly for PM |
| StaffDashboard.To12Hour | gui/SalonStaffDashBoard.java:625-634 | an hour 0..23 maps to 1..12, PM exactly from noon on, and converting back gives the original hour |
| StaffDashboard.ClockFaceRoundTrip | gui/SalonStaffDashBoard.java:297-302 | every selectable hour/AM-PM pair survives 12 -> 24 -> 12 unchanged |
| StaffDashboard.MinuteSlot | gui/SalonStaffDashBoard.java:637 | the selected minute is the multiple of five at or just below the appointment's minute |
| StaffDashboard.FormDateTime | gui/SalonStaffDashBoard.java:295-318 | the corrected conversion: an out-of-range time is reported exactly when the clock is invalid, before a missing date; any date the field shows is used, so the result is the form's date at the converted hour and minute with no seconds exactly when the clock is valid and a date is there |
| StaffDashboard.FormDateTimeAsWritten | gui/SalonStaffDashBoard.java:305-318 | as the handlers are written, a date the program put in the field (a `java.sql.Date`, lines 128, 623 and 666) is always refused as an invalid date or time; a date the user committed gives the corrected result |
| StaffDashboard.FormClient | gui/SalonStaffDashBoard.java:283-287 | the client booked for is the one the trimmed contact finds, or else a new client with the fresh id, the trimmed name and contact, and empty email and password |
| StaffDashboard.RegisterClient | gui/SalonStaffDashBoard.java:283-287 | a contact the lookup does not know adds one new client; a known contact leaves the client list alone |
| StaffDashboard.AddAppointment | gui/SalonStaffDashBoard.java:269-335 | each refusal holds exactly in its case, in the handler's order: missing details, unknown service, bad date or time, conflict found by `hasConflict`. A form passing every check succeeds: exactly one new confirmed appointment with the fresh id, the found or new client, the service and the date-time is inserted by `addSorted`. A failure leaves the store alone, a new client stays registered, and the invariant is kept |
| StaffDashboard.BookedSlotConflicts | gui/SalonStaffDashBoard.java:320-330 | once an appointment is in the store, adding another for the same client id at the same instant is refused as a conflict, whatever the service |
| StaffDashboard.AddKeepsNoDoubleBooking | gui/SalonStaffDashBoard.java:320-330 | an add never books a client twice at one instant |
| StaffDashboard.ClashesWithOther | gui/SalonStaffDashBoard.java:415-418 | the update scan is true exactly when an appointment other than the edited one has the client's id and the new instant |
| StaffDashboard.Edited | gui/SalonStaffDashBoard.java:427-429 | the edited appointment has the new client, service and time, and keeps its id and confirmation |
| StaffDashboard.FinishUpdate | gui/SalonStaffDashBoard.java:382-432 | the steps after the client is settled: an unknown service, a date failure and a clash found by the guard against the base appointment are reported in that order and change nothing; otherwise the edit replaces the base by id through remove-by-id and `addSorted`, keeping the invariant |
| StaffDashboard.UpdateAppointment | gui/SalonStaffDashBoard.java:337-441 | the corrected update: no selection, missing details and a cancelled dialog each fail exactly in their case and change nothing; then unknown service, bad date or time, and a conflict, each exactly in its case. The scan runs when the time or client differs from the appointment before the edit. A form passing every check succeeds with the selected id and confirmation, the chosen client, the service and the time, and the store becomes remove-by-id then `addSorted` of the edit. A failure leaves the store alone; the invariant is kept |
| StaffDashboard.UpdateReplaces | gui/SalonStaffDashBoard.java:427-432 | the store step of an update (remove by id, then `addSorted` the edit): when the id is in the store the size is unchanged and only the first node with it is swapped for the edit; when it is not, the edit is added and the size grows by one |
| StaffDashboard.ReplaceKeepsNoDoubleBooking | gui/SalonStaffDashBoard.java:413-432 | replacing a stored appointment by an edit that keeps its slot or clashes with no other appointment keeps every client free of two appointments at one instant |
| StaffDashboard.UpdateKeepsNoDoubleBooking | gui/SalonStaffDashBoard.java:337-441 | in a store with unique ids, the corrected update never books a client twice at one instant, whatever the dialog answer |
| StaffDashboard.SwapClient | gui/SalonStaffDashBoard.java:368 | `setClient` on the selected object changes the first stored node with its id and nothing else, keeping the size and the invariant |
| StaffDashboard.UpdateAppointmentAsWritten | gui/SalonStaffDashBoard.java:337-441 | the update as written: no selection, missing details and a cancelled dialog each fail exactly in their case and change nothing; then unknown service, a date the as-written conversion refuses, and a conflict, each exactly in its case, where the guard and the scan see the appointment already swapped to the new client after YES, so a success is exactly the remaining case. Once the update goes ahead an unknown contact is registered as a new client. With YES the stored appointment holds the new client when a later step fails; otherwise a failure leaves the store alone. A success carries the selected id and confirmation, the chosen client, the service found and the as-written date-time; the store is remove-by-id then `addSorted` of the edit, applied to the swapped store after YES |
| StaffDashboard.UpdateVersionsAgree | gui/SalonStaffDashBoard.java:337-441 | without the YES swap of a different client and without a date set by the program, the update as written and the corrected update give the same store and outcome |
| StaffDashboard.UpdateDoubleBooksAsWritten | gui/SalonStaffDashBoard.java:368-432 | A1 (Alice) and A2 (Ben) at 2025-12-12 10:30, no double booking; editing A1 with Ben's phone and the name "Robert" at the same time and answering YES succeeds as written and leaves Ben booked twice at 10:30 |
| StaffDashboard.ClashAsWrittenResult | gui/SalonStaffDashBoard.java:368-432 | the as-written update of that example succeeds with A1 given to Ben, and the store lists A2 then the edited A1 |
| StaffDashboard.UpdateRefusesDoubleBooking | gui/SalonStaffDashBoard.java:413-423 | the corrected update refuses the same edit as a conflict |
| StaffDashboard.ClashCorrectedGuard | gui/SalonStaffDashBoard.java:413-418 | in that example the guard against A1 as it was finds Ben's A2 at the new instant |
| StaffDashboard.PopulateFormForEdit | gui/SalonStaffDashBoard.java:617-642 | the form shows the client's name and phone, the service name, the date as a value the program set, the hour and AM/PM combos on the 12-hour face of the appointment's hour, and a minute that is the multiple of five at or just below the appointment's |
| StaffDashboard.EditFormRoundTrip | gui/SalonStaffDashBoard.java:617-638 | re-submitting an unchanged edit form gives the same date and hour with the minute rounded down to five and no seconds, and an appointment on a five-minute mark comes back exactly; as written the same holds once the user has re-committed the date |
| StaffDashboard.EditFormRefusedAsWritten | gui/SalonStaffDashBoard.java:623 | as written, re-submitting the edit form unchanged is always refused as an invalid date or time, although the corrected conversion accepts it |
| StaffDashboard.CancelAppointment | gui/SalonStaffDashBoard.java:644-660 | the new state is the old one with only the store changed, by `removeById` of the appointment's id: clients, services and every other appointment stay. The size drops by one when it was present and nothing changes otherwise. With unique ids it is no longer found. The invariant is kept |
| StaffDashboard.ScheduledAppointments | gui/SalonStaffDashBoard.java:443-451 | a null or blank search text lists the whole store; any other text lists the chain filtered by "the lower-cased client name contains the untrimmed text lower-cased", in chain order; on a valid store the list is time-ordered |
| LegacyList.DatePart | components/Appointment.java:34 | the date part is "(no date)" exactly for a null date-time, and otherwise the `yyyy-MM-dd HH:mm` form, which ends with a digit |
| LegacyList.LegacyText | components/Appointment.java:35 | for a date part that is "(no date)" or ends with a digit, the text is laid out as client name, the separator, service type, " @ " and the date part, and ends with "(no date)" exactly when the date part is it |
| LegacyList.LegacyToString | components/Appointment.java:32-36 | the text is the client name, the separator " â€” ", the service type, " @ " and then the date part, in that order; it ends with "(no date)" exactly when the date-time is null, and otherwise ends with its `yyyy-MM-dd HH:mm` form |
| LegacyList.AddAppointment | components/AppointmentLinkedList.java:17-32 | the new appointment becomes the tail and every earlier element keeps its place; no date ordering |
| LegacyList.Size | components/AppointmentLinkedList.java:79-88 | counting the nodes gives the length of the chain |
| LegacyList.SizeAfterAdd | components/AppointmentLinkedList.java:80-88 | each `addAppointment` makes `size()` one larger |
| LegacyList.RemoveAppointment | components/AppointmentLinkedList.java:34-56 | true exactly for 0 <= index < size, and then only the element at that index is removed with the rest in order; otherwise false and the list is unchanged |
| LegacyList.ToTableData | components/AppointmentLinkedList.java:58-77 | one five-column row per node in chain order: client name, service type, date-time, client name, contact |
| LegacyList.TableAfterAdd | components/AppointmentLinkedList.java:59-77 | the table after an add is the old table plus one row for the new appointment |
| Signup.SignUp | gui/SignupFrame.java:202-230 | "Please fill out all fields." exactly when the trimmed name or email or the untrimmed password is empty. The length message comes only after that, for passwords under 6 UTF-16 units. Success is exactly the remaining case, with the welcome for the name and all four fields cleared. Failures leave the fields as typed |
| Signup.PhoneNotRequired | gui/SignupFrame.java:205-213 | changing the phone changes neither the verdict nor the message |
| Signup.SupplementaryPasswordAccepted | gui/SignupFrame.java:215 | three characters outside the Basic Multilingual Plane make a password long enough, since each counts as two units |

## Left out

- Swing layout, rendering, dialogs, colours, images, and the login, client-dashboard,
  booking-dialog and appointments-panel windows. They hold no scheduling logic.
- The cancellation and pending-request approval workflows. `approveCancellation`,
  `removeCancellationRequest`, `getCancellationRequestsList` and `addPendingRequest` are
  called but not defined in `storage/DataManager.java`, so only the request records are modelled.
- `getClientByEmailOrPhone` and `getServiceByName` are not defined in `storage/DataManager.java`.
  They are function parameters here.
- StaffDashboard.UpdateAppointment: the `setName` and `setPhone` calls on the appointment's
  client are left out. They come in the NO answer of the client dialog and in the branch
  without a dialog, and `models/Client.java` does not define them. The NO answer is modelled
  as keeping the appointment's own client.
- StaffDashboard.UpdateAppointmentAsWritten: the object the EDIT button selected is not
  returned. After a failure it still holds the swapped client, and only the store is
  modelled. That object is taken to be the first stored node with its id.
- `getClientName`, `getClientContact` and `getServiceName` are called on `models.Appointment`
  by the dashboard but are not defined there. The model reads the client's name and phone
  and the service's name.
- The `ServiceItem` price is a double and is not modelled. Neither is its `toString`.
- Models.ClientToString: the password is a datatype field and so can be read in Dafny. Java
  exposes no getter for it, and that cannot be expressed on a datatype.
- Text.ToLower: folds ASCII letters only, while Java's `toLowerCase` is locale-aware Unicode folding.
- Text.EqualsIgnoreCase: compares after ASCII folding only, while Java's `equalsIgnoreCase`
  also folds non-ASCII letters.
- Text.Utf16Length: a Java string can hold unpaired surrogates. Dafny characters are Unicode
  scalar values, so such passwords are not modelled.
- DataManager.SeedInitialState: orders A001 before A002 only for a clock that does not run
  backwards between the two `now()` readings. `Seed` itself holds for any two readings.
- Time.PlusDays: years past the JDK's limit of 999999999, where `plusDays` throws, are not modelled.
- Models.ShownReason: states the empty-reason case in one direction only. A reason whose
  text is literally "No reason provided" is shown the same way as an empty one, so
  "placeholder shown iff the reason is empty" does not hold for it.
- Models.ShownMessage: the same for a client message whose text is literally "N/A".
- The "MMM dd, yyyy hh:mm a" strings of the request records' and dashboard's `toString`
  are not modelled. Only their placeholder rules are: `ShownReason` and `ShownMessage`.
- The conversion of a committed `java.util.Date` through the system time zone is not
  modelled. The form carries the `LocalDate` the field shows, tagged with who set it, or nothing.
- `Integer.parseInt` failures on the hour and minute combos are not modelled. The combos
  only offer "01".."12" and "00".."55", so the form carries the parsed numbers.
- Null strings other than the search text are not modelled. Neither are the
  null dereferences they would raise.
- `Serializable` and `serialVersionUID`, `components/AppointmentNode` (the chain is the
  sequence), and the "final" modifier on the DataManager fields. A Dafny datatype value is
  only ever rebuilt field by field, so the store is never swapped out.
- The seed calls the 5-argument `Client` constructor with 4 arguments. The seeded clients get an empty password.

## Findings

| source | as written | input that shows it | evidently intended | confidence | as-written member | corrected member |
|---|---|---|---|---|---|---|
| gui/SalonStaffDashBoard.java:368-418 | answering YES to the client dialog calls `setClient` on the stored appointment before the conflict guard, so the guard sees no client change and scans only when the time changes; the swap also stays in the store when a later step refuses the update | A1 (Alice) and A2 (Ben) both at 2025-12-12 10:30; edit A1 with the name "Robert", Ben's phone, the same service and time, and answer YES: the update succeeds and Ben holds two appointments at 10:30 | the guard compares against the appointment as it was before the edit, so the edit is refused as a conflict, and a refused update leaves the store as it was | not executed | StaffDashboard.UpdateDoubleBooksAsWritten | StaffDashboard.UpdateKeepsNoDoubleBooking |
| gui/SalonStaffDashBoard.java:305-318 | the program fills the date field with a `java.sql.Date` (lines 128, 623, 666), whose `toInstant()` throws `UnsupportedOperationException`; the catch reports "Invalid date or time format" | press UPDATE EXISTING right after EDIT without retyping the date, or ADD APPOINTMENT with the date the form starts with: both are refused | the date the field shows is used, so re-submitting an edit form reads back the appointment's date and time | not executed | StaffDashboard.EditFormRefusedAsWritten | StaffDashboard.EditFormRoundTrip |

=== FILE: data_manager.dfy ===
/** storage/DataManager: the in-memory catalogue and appointment store, and the
    state its constructor seeds. The three fields are final, so a DataManager value
    is only ever updated field by field, never swapped for another store object. */
module DataManager {
  import opened Time
  import opened Models
  import opened Store

  datatype DataManager = DataManager(
    clients: seq<Client>,
    services: seq<ServiceItem>,
    appointments: AppointmentList)

  /** The seeded clients; the source passes no password, so it is empty here. */
  const Alice := Client("C001", "Alice", "09171234567", "alice@mail.com", "")
  const Ben := Client("C002", "Ben", "09179876543", "ben@mail.com", "")

  const Haircut := ServiceItem("S001", "Haircut")
  const Manicure := ServiceItem("S002", "Manicure")
  const Facial := ServiceItem("S003", "Facial")

  /** The constructor followed by seed(). seed() calls LocalDateTime.now() once per
      appointment: `now1` is the first reading, `now2` the second. The store then holds
      exactly the two unconfirmed seeded appointments, whichever way the clock moved. */
  function Seed(now1: LocalDateTime, now2: LocalDateTime): (dm: DataManager)
    ensures dm.clients == [Alice, Ben] && dm.services == [Haircut, Manicure, Facial]
    ensures Valid(dm.appointments) && Size(dm.appointments) == 2
    ensures multiset(dm.appointments.items) ==
      multiset{NewAppointment("A001", Alice, Haircut, PlusDays(now1, 1)),
               NewAppointment("A002", Ben, Facial, PlusDays(now2, 2))}
  {
    var a1 := NewAppointment("A001", Alice, Haircut, PlusDays(now1, 1));
    var a2 := NewAppointment("A002", Ben, Facial, PlusDays(now2, 2));
    DataManager([Alice, Ben], [Haircut, Manicure, Facial], AddSorted(AddSorted(EmptyList, a1), a2))
  }

  /** After construction, given a clock that does not run backwards between the two
      readings: two clients, three services, and a valid store of size two listing A001
      (a day after the first reading, for Alice) before A002 (two days after the second,
      for Ben), both unconfirmed. */
  lemma SeedInitialState(now1: LocalDateTime, now2: LocalDateTime)
    requires !IsBefore(now2, now1)
    ensures var dm := Seed(now1, now2);
      && |dm.clients| == 2 && dm.clients[0].id == "C001" && dm.clients[0].name == "Alice"
      && dm.clients[1].id == "C002" && dm.clients[1].name == "Ben"
      && |dm.services| == 3
      && dm.services[0].id == "S001" && dm.services[1].id == "S002" && dm.services[2].id == "S003"
      && Valid(dm.appointments) && Size(dm.appointments) == 2
      && var l := ToList(dm.appointments);
         && l[0].id == "A001" && l[0].client == Alice && l[0].service == Haircut
         && l[0].dateTime == PlusDays(now1, 1)
         && l[1].id == "A002" && l[1].client == Ben && l[1].service == Facial
         && l[1].dateTime == PlusDays(now2, 2)
         && !l[0].confirmed && !l[1].confirmed
  {
    SeedStore(now1, now2);
  }

  /** With the clock not running backwards, the second seeded appointment is inserted
      after the first. */
  lemma SeedStore(now1: LocalDateTime, now2: LocalDateTime)
    requires !IsBefore(now2, now1)
    ensures Seed(now1, now2).appointments.items ==
      [NewAppointment("A001", Alice, Haircut, PlusDays(now1, 1)),
       NewAppointment("A002", Ben, Facial, PlusDays(now2, 2))]
  {
    var a1 := NewAppointment("A001", Alice, Haircut, PlusDays(now1, 1));
    var a2 := NewAppointment("A002", Ben, Facial, PlusDays(now2, 2));
    IsBeforeIsEpochOrder(now2, now1);
    IsBeforeIsEpochOrder(a1.dateTime, a2.dateTime);
    assert IsBefore(a1.dateTime, a2.dateTime);
    IsBeforeAsymmetric(a1.dateTime, a2.dateTime);
    InsertTwo(a1, a2);
  }
}

=== FILE: legacy_list.dfy ===
/** The older revision in package `components`: a plain appointment record and a
    linked list that appends at the tail and removes by position. Despite its header
    comment, nothing in this list sorts by date. */
module LegacyList {
  import opened Wrappers
  import opened Text
  import opened Time

  /** components/Appointment: every field is public; the date-time may be null. */
  datatype LegacyAppointment = LegacyAppointment(
    id: string,
    clientName: string,
    contact: string,
    serviceType: string,
    dateTime: Option<LocalDateTime>)

  const NoDate := "(no date)"

  /** The separator of toString, as the characters the source file holds ("â€”": an em
      dash whose UTF-8 bytes were read as Windows-1252). */
  const Separator := " â€” "

  /** The date part of toString: the display format, or "(no date)" for a null date-time. */
  function DatePart(dateTime: Option<LocalDateTime>): (r: string)
    ensures |r| > 0
    ensures dateTime.None? ==> r == NoDate
    ensures dateTime.Some? ==> r == DisplayString(dateTime.value) && IsDigit(r[|r| - 1])
    ensures r == NoDate <==> dateTime.None?
  {
    assert NoDate[|NoDate| - 1] == ')';
    match dateTime
    case None => NoDate
    case Some(t) => DisplayString(t)
  }

  /** The toString layout: client name, separator, service type, " @ ", then the date part. */
  predicate LaidOut(r: string, name: string, service: string, dt: string) {
    var n := |name|; var m := n + |Separator|; var k := m + |service|;
    && |r| == k + 3 + |dt|
    && r[0..n] == name && r[n..m] == Separator && r[m..k] == service
    && r[k..k + 3] == " @ " && r[k + 3..|r|] == dt
  }

  /** The toString text for any date part that is either "(no date)" or ends with a digit. */
  function LegacyText(name: string, service: string, dt: string): (r: string)
    requires |dt| > 0 && (dt == NoDate || IsDigit(dt[|dt| - 1]))
    ensures LaidOut(r, name, service, dt)
    ensures EndsWith(r, dt) && (EndsWith(r, NoDate) <==> dt == NoDate)
  {
    var r := name + Separator + service + " @ " + dt;
    JoinFive(name, Separator, service, " @ ", dt);
    assert dt != NoDate ==> r[|r| - 1] != NoDate[|NoDate| - 1];
    r
  }

  /** toString: client name, separator, service type, " @ ", and the date-time in the
      "yyyy-MM-dd HH:mm" display format, or "(no date)" when there is none. The text ends
      with "(no date)" exactly when the date-time is null, since a formatted date-time ends
      with a digit. */
  function LegacyToString(a: LegacyAppointment): (r: string)
    ensures LaidOut(r, a.clientName, a.serviceType, DatePart(a.dateTime))
    ensures EndsWith(r, NoDate) <==> a.dateTime.None?
    ensures a.dateTime.Some? ==> EndsWith(r, DisplayString(a.dateTime.value))
  {
    LegacyText(a.clientName, a.serviceType, DatePart(a.dateTime))
  }

  /** addAppointment: the new appointment becomes the tail; everything before keeps its place. */
  function AddAppointment(s: seq<LegacyAppointment>, a: LegacyAppointment): (r: seq<LegacyAppointment>)
    ensures |r| == |s| + 1
    ensures r[..|s|] == s && r[|s|] == a
  {
    s + [a]
  }

  /** size(): walks the chain and counts the nodes. */
  method Size(s: seq<LegacyAppointment>) returns (count: nat)
    ensures count == |s|
  {
    count := 0;
    var rest := s;
    while |rest| > 0
      invariant count + |rest| == |s|
      decreases |rest|
    {
      rest := rest[1..];
      count := count + 1;
    }
  }

  /** Each addAppointment makes size() one larger. */
  method SizeAfterAdd(s: seq<LegacyAppointment>, a: LegacyAppointment) returns (before: nat, after: nat)
    ensures after == before + 1
  {
    before := Size(s);
    after := Size(AddAppointment(s, a));
  }

  /** removeAppointment(index): the head for index 0, otherwise the walk with `counter`
      that unlinks the successor of node counter when counter + 1 == index. */
  method RemoveAppointment(s: seq<LegacyAppointment>, index: int) returns (removed: bool, r: seq<LegacyAppointment>)
    ensures removed <==> 0 <= index < |s|
    ensures removed ==> r == s[..index] + s[index + 1..]
    ensures !removed ==> r == s
  {
    if |s| == 0 {
      return false, s;
    }
    if index == 0 {
      return true, s[1..];
    }
    var counter := 0;
    while counter + 1 < |s|
      invariant 0 <= counter < |s|
      invariant !(1 <= index <= counter)
      decreases |s| - counter
    {
      if counter + 1 == index {
        return true, s[..index] + s[index + 1..];
      }
      counter := counter + 1;
    }
    return false, s;
  }

  /** A JTable cell: a string, or the (possibly null) LocalDateTime object itself. */
  datatype Cell = Text(text: string) | When(dateTime: Option<LocalDateTime>)

  /** One table row: client name, service type, date-time, client name again, contact. */
  function Row(a: LegacyAppointment): (row: seq<Cell>)
    ensures |row| == 5
  {
    [Text(a.clientName), Text(a.serviceType), When(a.dateTime), Text(a.clientName), Text(a.contact)]
  }

  /** toTableData: one row per node, in chain order. */
  function ToTableData(s: seq<LegacyAppointment>): (rows: seq<seq<Cell>>)
    ensures |rows| == |s|
    ensures forall i :: 0 <= i < |s| ==> |rows[i]| == 5 && rows[i] == Row(s[i])
  {
    seq(|s|, i requires 0 <= i < |s| => Row(s[i]))
  }

  /** The table of a list grown by addAppointment is the old table with one row for the
      new appointment appended. */
  lemma TableAfterAdd(s: seq<LegacyAppointment>, a: LegacyAppointment)
    ensures ToTableData(AddAppointment(s, a)) == ToTableData(s) + [Row(a)]
  {
  }
}

=== FILE: models.dfy ===
/** The entity records of the `models` package. Each is an immutable datatype: a
    datatype field is the Java getter, and a Java setter becomes a function that
    returns the updated record. */
module Models {
  import opened Text
  import opened Time

  /** models/Client: the password is stored with the other fields. */
  datatype Client = Client(id: string, name: string, phone: string, email: string, password: string)

  /** models/ServiceItem, reduced to its identity; the price is a double and is not modelled. */
  datatype ServiceItem = ServiceItem(id: string, name: string)

  datatype Appointment = Appointment(
    id: string,
    client: Client,
    service: ServiceItem,
    dateTime: LocalDateTime,
    confirmed: bool)

  /** Client.toString: the name, then the id in parentheses. */
  function ClientToString(c: Client): (r: string)
    ensures |r| == |c.name| + |c.id| + 3
    ensures r[..|c.name|] == c.name
    ensures r[|c.name| + 2..|r| - 1] == c.id
    ensures r[|c.name|..|c.name| + 2] == " (" && r[|r| - 1] == ')'
  {
    c.name + " (" + c.id + ")"
  }

  /** The four-argument Appointment constructor: every new appointment starts unconfirmed. */
  function NewAppointment(id: string, client: Client, service: ServiceItem, dateTime: LocalDateTime): (a: Appointment)
    ensures a.id == id && a.client == client && a.service == service && a.dateTime == dateTime
    ensures !a.confirmed
  {
    Appointment(id, client, service, dateTime, false)
  }

  // The setters. Each one changes its own field and nothing else; none touches the id,
  // and there is no setter for the id at all.

  function SetConfirmed(a: Appointment, confirmed: bool): (r: Appointment)
    ensures r.confirmed == confirmed
    ensures r.id == a.id && r.client == a.client && r.service == a.service && r.dateTime == a.dateTime
  {
    a.(confirmed := confirmed)
  }

  function SetClient(a: Appointment, client: Client): (r: Appointment)
    ensures r.client == client
    ensures r.id == a.id && r.service == a.service && r.dateTime == a.dateTime && r.confirmed == a.confirmed
  {
    a.(client := client)
  }

  function SetService(a: Appointment, service: ServiceItem): (r: Appointment)
    ensures r.service == service
    ensures r.id == a.id && r.client == a.client && r.dateTime == a.dateTime && r.confirmed == a.confirmed
  {
    a.(service := service)
  }

  function SetDateTime(a: Appointment, dateTime: LocalDateTime): (r: Appointment)
    ensures r.dateTime == dateTime
    ensures r.id == a.id && r.client == a.client && r.service == a.service && r.confirmed == a.confirmed
  {
    a.(dateTime := dateTime)
  }

  const ConfirmedSuffix := " | CONFIRMED"

  /** Appointment.toString: id, client name, service name and the ISO date-time joined by
      " | ", with " | CONFIRMED" appended for a confirmed appointment. The text ends with the
      marker exactly when the appointment is confirmed: otherwise it ends with the last digit
      of the date-time. */
  function AppointmentToString(a: Appointment): (r: string)
    ensures |AppointmentSummary(a)| <= |r| && r[..|AppointmentSummary(a)|] == AppointmentSummary(a)
    ensures EndsWith(r, ConfirmedSuffix) <==> a.confirmed
  {
    var summary := AppointmentSummary(a);
    var r := summary + (if a.confirmed then ConfirmedSuffix else "");
    if a.confirmed then
      assert r[|r| - |ConfirmedSuffix|..] == ConfirmedSuffix;
      r
    else r
  }

  const Bar := " | "

  /** The summary layout: id, " | ", client name, " | ", service name, " | ", date-time text. */
  predicate SummaryLaidOut(r: string, id: string, client: string, service: string, iso: string) {
    var n := |id|; var m := n + 3; var k := m + |client|; var q := k + 3; var u := q + |service|; var v := u + 3;
    && |r| == v + |iso|
    && r[0..n] == id && r[n..m] == Bar && r[m..k] == client && r[k..q] == Bar
    && r[q..u] == service && r[u..v] == Bar && r[v..|r|] == iso
  }

  /** The summary text for any parts, the last one not empty. */
  function SummaryText(id: string, client: string, service: string, iso: string): (r: string)
    requires |iso| > 0
    ensures SummaryLaidOut(r, id, client, service, iso)
    ensures |id| + 3 <= |r| && r[..|id| + 3] == id + Bar
    ensures EndsWith(r, iso) && r[|r| - 1] == iso[|iso| - 1]
  {
    var r := id + Bar + client + Bar + service + Bar + iso;
    JoinSeven(id, Bar, client, Bar, service, Bar, iso);
    SplitPrefix(r, id, Bar);
    r
  }

  /** The part of the text before the confirmation marker: id, client name and service name
      joined by " | ", then " | " and the ISO date-time, whose last character is a digit. */
  function AppointmentSummary(a: Appointment): (r: string)
    ensures SummaryLaidOut(r, a.id, a.client.name, a.service.name, IsoString(a.dateTime))
    ensures |r| > 0 && IsDigit(r[|r| - 1])
    ensures |a.id| + 3 <= |r| && r[..|a.id| + 3] == a.id + " | "
    ensures EndsWith(r, IsoString(a.dateTime))
  {
    SummaryText(a.id, a.client.name, a.service.name, IsoString(a.dateTime))
  }

  /** models/CancellationRequest: a snapshot of an appointment taken when the
      cancellation is requested. */
  datatype CancellationRequest = CancellationRequest(
    requestId: string,
    appointmentId: string,
    client: Client,
    service: ServiceItem,
    appointmentDateTime: LocalDateTime,
    requestDateTime: LocalDateTime,
    reason: string)

  /** The CancellationRequest constructor; `now` is the value LocalDateTime.now() returns. */
  function NewCancellationRequest(requestId: string, appointmentId: string, client: Client,
                                  service: ServiceItem, appointmentDateTime: LocalDateTime,
                                  reason: string, now: LocalDateTime): (r: CancellationRequest)
    ensures r.requestId == requestId && r.appointmentId == appointmentId
    ensures r.client == client && r.service == service && r.appointmentDateTime == appointmentDateTime
    ensures r.reason == reason
    ensures r.requestDateTime == now
  {
    CancellationRequest(requestId, appointmentId, client, service, appointmentDateTime, now, reason)
  }

  const NoReasonPlaceholder := "No reason provided"

  /** The reason line of CancellationRequest.toString. An empty reason is shown as the
      placeholder; a non-empty reason is shown as given. */
  function ShownReason(r: CancellationRequest): (shown: string)
    ensures shown != ""
    ensures r.reason != "" ==> shown == r.reason
    ensures r.reason == "" ==> shown == NoReasonPlaceholder
  {
    if |r.reason| == 0 then NoReasonPlaceholder else r.reason
  }

  /** models/PendingAppointmentRequest: a client's proposal, immutable once created. */
  datatype PendingAppointmentRequest = PendingAppointmentRequest(
    requestId: string,
    client: Client,
    service: ServiceItem,
    preferredDateTime: LocalDateTime,
    clientMessage: string)

  const NoMessagePlaceholder := "N/A"

  /** The message line of PendingAppointmentRequest.toString. */
  function ShownMessage(p: PendingAppointmentRequest): (shown: string)
    ensures shown != ""
    ensures p.clientMessage != "" ==> shown == p.clientMessage
    ensures p.clientMessage == "" ==> shown == NoMessagePlaceholder
  {
    if |p.clientMessage| == 0 then NoMessagePlaceholder else p.clientMessage
  }
}

=== FILE: signup.dfy ===
/** The mock sign-up of gui/SignupFrame: validation of the four fields and the message
    shown in the feedback label. Nothing is stored. */
module Signup {
  import opened Text

  datatype SignupForm = SignupForm(fullName: string, email: string, phone: string, password: string)

  /** What the feedback label says after a click. */
  datatype Feedback = FillAllFields | PasswordTooShort | Welcome(fullName: string)

  datatype SignupResult = SignupResult(accepted: bool, feedback: Feedback, form: SignupForm)

  const MinPasswordLength := 6

  /** The label text of each feedback. */
  function Message(m: Feedback): string {
    match m
    case FillAllFields => "Please fill out all fields."
    case PasswordTooShort => "Password must be at least 6 characters long."
    case Welcome(fullName) => "Sign Up Successful! Welcome, " + Trim(fullName) + "!"
  }

  const ClearedForm := SignupForm("", "", "", "")

  /** Name and email count after trimming; the password is taken as typed, so
      whitespace counts toward its length. The phone is never consulted. */
  predicate MissingField(f: SignupForm) {
    IsBlank(f.fullName) || IsBlank(f.email) || |f.password| == 0
  }

  /** The Sign Up button. The password's length is String.length(), counted in UTF-16 units. */
  function SignUp(f: SignupForm): (r: SignupResult)
    ensures r.feedback == FillAllFields <==> MissingField(f)
    ensures r.feedback == PasswordTooShort <==> !MissingField(f) && Utf16Length(f.password) < MinPasswordLength
    ensures r.accepted <==> !MissingField(f) && Utf16Length(f.password) >= MinPasswordLength
    ensures r.accepted ==> r.feedback == Welcome(f.fullName)
    ensures r.accepted ==> r.form == ClearedForm
    ensures !r.accepted ==> r.form == f
  {
    if MissingField(f) then SignupResult(false, FillAllFields, f)
    else if Utf16Length(f.password) < MinPasswordLength then SignupResult(false, PasswordTooShort, f)
    else SignupResult(true, Welcome(f.fullName), ClearedForm)
  }

  /** The phone never decides the outcome: changing it changes neither the verdict nor the message. */
  lemma PhoneNotRequired(f: SignupForm, phone: string)
    ensures SignUp(f.(phone := phone)).accepted == SignUp(f).accepted
    ensures SignUp(f.(phone := phone)).feedback == SignUp(f).feedback
  {
  }

  /** Characters outside the Basic Multilingual Plane count twice: three of them make a
      password long enough. */
  lemma SupplementaryPasswordAccepted(f: SignupForm)
    requires !IsBlank(f.fullName) && !IsBlank(f.email)
    requires |f.password| >= 3 && forall i :: 0 <= i < |f.password| ==> f.password[i] as int > 0xFFFF
    ensures SignUp(f).accepted
  {
    Utf16LengthOfSupplementary(f.password);
  }
}

=== FILE: staff_dashboard.dfy ===
/** The booking decisions of gui/SalonStaffDashBoard, without Swing: each action
    handler becomes a pure function from the data manager and the form's contents to
    the new data manager and the outcome the handler reports in its dialog. The
    client and service lookups it calls and the UUIDs it draws are parameters. */
module StaffDashboard {
  import opened Wrappers
  import opened Text
  import opened Time
  import opened Models
  import opened Store
  import opened DataManager

  // ------------------------------------------------------------ the clock face

  datatype Meridiem = AM | PM

  /** The hour combo's 12-hour value and the AM/PM combo turned into an hour of the day. */
  function To24Hour(hour: int, meridiem: Meridiem): (h: int)
    ensures 1 <= hour <= 12 ==> 0 <= h < 24
    ensures 1 <= hour <= 12 ==> h % 12 == hour % 12 && (h >= 12 <==> meridiem == PM)
  {
    if meridiem == PM && hour != 12 then hour + 12
    else if meridiem == AM && hour == 12 then 0
    else
      assert 1 <= hour <= 12 ==> (meridiem == PM <==> hour == 12);
      hour
  }

  datatype ClockFace = ClockFace(hour: int, meridiem: Meridiem)

  /** populateFormForEdit's conversion of an hour of the day to the two combos: noon and
      later is PM, hours past noon lose 12, and midnight shows as 12 AM. */
  function To12Hour(hour: int): (c: ClockFace)
    requires 0 <= hour < 24
    ensures 1 <= c.hour <= 12
    ensures c.meridiem == PM <==> hour >= 12
    ensures To24Hour(c.hour, c.meridiem) == hour
  {
    var m := if hour >= 12 then PM else AM;
    var h := if hour > 12 then hour - 12 else hour;
    ClockFace(if h == 0 then 12 else h, m)
  }

  /** The other round trip: every selectable combo pair survives 12 -> 24 -> 12. */
  lemma ClockFaceRoundTrip(hour: int, meridiem: Meridiem)
    requires 1 <= hour <= 12
    ensures To12Hour(To24Hour(hour, meridiem)) == ClockFace(hour, meridiem)
  {
  }

  /** The minute combo only offers multiples of five; an edit selects the one at or below. */
  function MinuteSlot(minute: int): (m: int)
    requires 0 <= minute < 60
    ensures m % 5 == 0 && m <= minute < m + 5
    ensures 0 <= m < 60
  {
    (minute / 5) * 5
  }

  // ------------------------------------------------------------------ the form

  /** The value of the date field. The program itself stores a java.sql.Date: at start-up,
      in clearForm and in populateFormForEdit. A date the user types and commits is parsed
      by the field's SimpleDateFormat into a plain java.util.Date. */
  datatype DateField = Blank | SetByProgram(date: LocalDate) | Committed(date: LocalDate)

  /** What the appointment form holds when a button is pressed. The hour and minute are
      the parsed combo selections. */
  datatype AppointmentForm = AppointmentForm(
    clientName: string,
    contact: string,
    serviceName: Option<string>,
    hour: int,
    minute: int,
    meridiem: Meridiem,
    date: DateField)

  datatype StaffError =
    | NoSelection       // "No appointment selected for update."
    | MissingDetails    // "Please fill in all appointment details."
    | UpdateCancelled   // the client-conflict dialog was cancelled; no message
    | UnknownService    // "Selected service is invalid."
    | InvalidDateTime   // "Invalid date or time format: ..."
    | MissingDate       // "Please enter a valid date."
    | SlotConflict      // the client already has an appointment at that exact time

  datatype StaffResult = StaffResult(data: DataManager, outcome: Result<Appointment, StaffError>)

  /** The trimmed client name or contact is empty, or no service is selected. */
  predicate IncompleteForm(form: AppointmentForm) {
    IsBlank(form.clientName) || IsBlank(form.contact) || form.serviceName.None?
  }

  predicate ValidClock(form: AppointmentForm) {
    0 <= To24Hour(form.hour, form.meridiem) < 24 && 0 <= form.minute < 60
  }

  /** The date-time a form denotes, reading the date the field shows whoever put it there.
      LocalTime.of is evaluated before the date field is read, so an out-of-range time is
      reported even when the date is also missing. */
  function FormDateTime(form: AppointmentForm): (r: Result<LocalDateTime, StaffError>)
    ensures r == Failure(InvalidDateTime) <==> !ValidClock(form)
    ensures r == Failure(MissingDate) <==> ValidClock(form) && form.date.Blank?
    ensures r.Success? <==> ValidClock(form) && !form.date.Blank?
    ensures r.Success? ==>
      && r.value.date == form.date.date && r.value.hour == To24Hour(form.hour, form.meridiem)
      && r.value.minute == form.minute && r.value.second == 0 && r.value.nano == 0
  {
    var h := To24Hour(form.hour, form.meridiem);
    if !(0 <= h < 24 && 0 <= form.minute < 60) then Failure(InvalidDateTime)
    else match form.date
      case Blank => Failure(MissingDate)
      case SetByProgram(d) => Success(DateTime(d, h, form.minute, 0, 0))
      case Committed(d) => Success(DateTime(d, h, form.minute, 0, 0))
  }

  /** The conversion as the handlers write it: `toInstant` on the field's value throws for a
      java.sql.Date, and the handler reports that as an invalid date or time. So a date the
      program put in the field is always refused; a committed one reads as intended. */
  function FormDateTimeAsWritten(form: AppointmentForm): (r: Result<LocalDateTime, StaffError>)
    ensures form.date.SetByProgram? ==> r == Failure(InvalidDateTime)
    ensures !form.date.SetByProgram? ==> r == FormDateTime(form)
  {
    var h := To24Hour(form.hour, form.meridiem);
    if !(0 <= h < 24 && 0 <= form.minute < 60) then Failure(InvalidDateTime)
    else match form.date
      case Blank => Failure(MissingDate)
      case SetByProgram(_) => Failure(InvalidDateTime)
      case Committed(d) => Success(DateTime(d, h, form.minute, 0, 0))
  }

  /** The client a form books for: the one the contact lookup finds, or else a new
      client with a fresh id, the trimmed name and contact, and empty email and password. */
  function FormClient(form: AppointmentForm, findClient: string -> Option<Client>, freshClientId: string): (c: Client)
    ensures findClient(Trim(form.contact)).Some? ==> c == findClient(Trim(form.contact)).value
    ensures findClient(Trim(form.contact)).None? ==>
      c == Client(freshClientId, Trim(form.clientName), Trim(form.contact), "", "")
  {
    match findClient(Trim(form.contact))
    case Some(c) => c
    case None => Client(freshClientId, Trim(form.clientName), Trim(form.contact), "", "")
  }

  /** The data manager after the client lookup: a new client is added to `clients`
      before any later check, so it stays there even if the action then fails. */
  function RegisterClient(dm: DataManager, form: AppointmentForm, findClient: string -> Option<Client>,
                          freshClientId: string): (r: DataManager)
    ensures r.services == dm.services && r.appointments == dm.appointments
    ensures findClient(Trim(form.contact)).Some? ==> r.clients == dm.clients
    ensures findClient(Trim(form.contact)).None? ==>
      r.clients == dm.clients + [FormClient(form, findClient, freshClientId)]
  {
    if findClient(Trim(form.contact)).Some? then dm
    else dm.(clients := dm.clients + [FormClient(form, findClient, freshClientId)])
  }

  // ------------------------------------------------------------ addAppointment

  /** The ADD APPOINTMENT button. */
  function AddAppointment(dm: DataManager, form: AppointmentForm,
                          findClient: string -> Option<Client>, findService: string -> Option<ServiceItem>,
                          freshClientId: string, freshAppointmentId: string): (res: StaffResult)
    ensures res.outcome == Failure(MissingDetails) <==> IncompleteForm(form)
    ensures IncompleteForm(form) ==> res.data == dm
    ensures !IncompleteForm(form) ==> res.data.clients == RegisterClient(dm, form, findClient, freshClientId).clients
    ensures res.data.services == dm.services
    ensures res.outcome.Failure? ==> res.data.appointments == dm.appointments
    ensures res.outcome == Failure(UnknownService) <==>
      !IncompleteForm(form) && findService(form.serviceName.value).None?
    ensures res.outcome == Failure(InvalidDateTime) || res.outcome == Failure(MissingDate) <==>
      !IncompleteForm(form) && findService(form.serviceName.value).Some? && FormDateTime(form).Failure?
    ensures res.outcome == Failure(InvalidDateTime) || res.outcome == Failure(MissingDate) ==>
      FormDateTime(form) == Failure(res.outcome.error)
    ensures res.outcome == Failure(SlotConflict) <==>
      && !IncompleteForm(form) && findService(form.serviceName.value).Some? && FormDateTime(form).Success?
      && HasConflict(ToList(dm.appointments), FormClient(form, findClient, freshClientId), FormDateTime(form).value)
    ensures res.outcome.Success? <==>
      && !IncompleteForm(form) && findService(form.serviceName.value).Some? && FormDateTime(form).Success?
      && !HasConflict(ToList(dm.appointments), FormClient(form, findClient, freshClientId), FormDateTime(form).value)
    ensures res.outcome.Success? ==>
      var a := res.outcome.value;
      && a.id == freshAppointmentId && a.confirmed
      && a.client == FormClient(form, findClient, freshClientId)
      && findService(form.serviceName.value) == Some(a.service)
      && FormDateTime(form) == Success(a.dateTime)
      && res.data.appointments == AddSorted(dm.appointments, a)
    ensures Valid(dm.appointments) ==> Valid(res.data.appointments)
  {
    if IncompleteForm(form) then StaffResult(dm, Failure(MissingDetails))
    else
      var client := FormClient(form, findClient, freshClientId);
      var dm1 := RegisterClient(dm, form, findClient, freshClientId);
      match findService(form.serviceName.value)
      case None => StaffResult(dm1, Failure(UnknownService))
      case Some(service) =>
        match FormDateTime(form)
        case Failure(e) => StaffResult(dm1, Failure(e))
        case Success(dt) =>
          if HasConflict(ToList(dm1.appointments), client, dt) then StaffResult(dm1, Failure(SlotConflict))
          else
            var a := SetConfirmed(NewAppointment(freshAppointmentId, client, service, dt), true);
            StaffResult(dm1.(appointments := AddSorted(dm1.appointments, a)), Success(a))
  }

  /** A booked appointment blocks its slot: adding an appointment for the same client
      (by id) at the same instant is refused as a conflict, whatever service the form
      selects. With AddAppointment's success clause this covers booking the same form twice. */
  lemma BookedSlotConflicts(dm: DataManager, booked: Appointment, form: AppointmentForm,
                            findClient: string -> Option<Client>, findService: string -> Option<ServiceItem>,
                            freshClientId: string, freshAppointmentId: string)
    requires booked in dm.appointments.items
    requires !IncompleteForm(form) && findService(form.serviceName.value).Some?
    requires FormDateTime(form) == Success(booked.dateTime)
    requires FormClient(form, findClient, freshClientId).id == booked.client.id
    ensures AddAppointment(dm, form, findClient, findService, freshClientId, freshAppointmentId).outcome
      == Failure(SlotConflict)
  {
    var client := FormClient(form, findClient, freshClientId);
    var i :| 0 <= i < |dm.appointments.items| && dm.appointments.items[i] == booked;
    assert Clashes(ToList(dm.appointments)[i], client, booked.dateTime);
    assert RegisterClient(dm, form, findClient, freshClientId).appointments == dm.appointments;
  }

  /** An add never double-books a client: the store stays free of two appointments of
      one client at one time. */
  lemma AddKeepsNoDoubleBooking(dm: DataManager, form: AppointmentForm,
                                findClient: string -> Option<Client>, findService: string -> Option<ServiceItem>,
                                freshClientId: string, freshAppointmentId: string)
    requires NoDoubleBooking(dm.appointments.items)
    ensures NoDoubleBooking(AddAppointment(dm, form, findClient, findService, freshClientId, freshAppointmentId)
      .data.appointments.items)
  {
    var res := AddAppointment(dm, form, findClient, findService, freshClientId, freshAppointmentId);
    if res.outcome.Success? {
      assert ToList(dm.appointments) == dm.appointments.items;
      AddSortedKeepsNoDoubleBooking(dm.appointments, res.outcome.value);
    }
  }

  // --------------------------------------------------------- updateAppointment

  /** The answer to the "Client Conflict" dialog: change the appointment's client to the
      matching one (YES), keep and update the current client (NO), or cancel. */
  datatype ClientChoice = AdoptMatching | KeepCurrent | CancelUpdate

  /** The dialog opens when the contact finds a client other than the appointment's whose
      name differs, ignoring case, from the typed one. */
  predicate AsksAboutClient(current: Appointment, form: AppointmentForm, findClient: string -> Option<Client>) {
    var found := findClient(Trim(form.contact));
    found.Some? && found.value.id != current.client.id && !EqualsIgnoreCase(found.value.name, Trim(form.clientName))
  }

  /** The update gets past the form check and the dialog. */
  predicate UpdateGoesAhead(selected: Option<Appointment>, form: AppointmentForm,
                            findClient: string -> Option<Client>, choice: ClientChoice) {
    && selected.Some? && !IncompleteForm(form)
    && !(AsksAboutClient(selected.value, form, findClient) && choice == CancelUpdate)
  }

  /** The dialog was answered by adopting the matching client. */
  predicate AdoptsMatching(current: Appointment, form: AppointmentForm,
                           findClient: string -> Option<Client>, choice: ClientChoice) {
    AsksAboutClient(current, form, findClient) && choice == AdoptMatching
  }

  /** The client an update books for: the appointment's own client when the dialog is
      answered with NO, otherwise the client an add would book for. */
  function UpdateClient(current: Appointment, form: AppointmentForm, findClient: string -> Option<Client>,
                        freshClientId: string, choice: ClientChoice): Client
  {
    if AsksAboutClient(current, form, findClient) && choice == KeepCurrent then current.client
    else FormClient(form, findClient, freshClientId)
  }

  /** The conflict scan of an update runs only when the time or the client changes. */
  predicate NeedsConflictScan(edited: Appointment, client: Client, dateTime: LocalDateTime) {
    edited.dateTime != dateTime || edited.client.id != client.id
  }

  /** The scan itself: some appointment other than the one being edited clashes. */
  function ClashesWithOther(s: seq<Appointment>, editedId: string, client: Client, dateTime: LocalDateTime): (r: bool)
    ensures r <==> exists i :: 0 <= i < |s| && s[i].id != editedId && Clashes(s[i], client, dateTime)
  {
    if |s| == 0 then false
    else if s[0].id != editedId && Clashes(s[0], client, dateTime) then true
    else
      assert forall i :: 1 <= i < |s| ==> s[i] == s[1..][i - 1];
      ClashesWithOther(s[1..], editedId, client, dateTime)
  }

  /** The edited appointment: new client, service and time; same id and confirmation. */
  function Edited(a: Appointment, client: Client, service: ServiceItem, dateTime: LocalDateTime): (r: Appointment)
    ensures r.id == a.id && r.confirmed == a.confirmed
    ensures r.client == client && r.service == service && r.dateTime == dateTime
  {
    SetDateTime(SetService(SetClient(a, client), service), dateTime)
  }

  /** The conflict guard of an update: the scan runs when the time or the client differs
      from `base`, and finds an appointment other than `base` with that client and time. */
  predicate UpdateClashes(l: AppointmentList, base: Appointment, client: Client, dateTime: LocalDateTime) {
    NeedsConflictScan(base, client, dateTime) && ClashesWithOther(ToList(l), base.id, client, dateTime)
  }

  /** The part of an update after the client is settled: the service lookup, the date-time,
      the conflict guard against `base`, then removeById and addSorted of the edited
      appointment. `dm` already holds any newly created client. */
  function FinishUpdate(dm: DataManager, base: Appointment, client: Client, service: Option<ServiceItem>,
                        dateTime: Result<LocalDateTime, StaffError>): (res: StaffResult)
    ensures res.data.clients == dm.clients && res.data.services == dm.services
    ensures res.outcome.Failure? ==> res.data == dm
    ensures service.None? ==> res.outcome == Failure(UnknownService)
    ensures service.Some? && dateTime.Failure? ==> res.outcome == Failure(dateTime.error)
    ensures service.Some? && dateTime.Success? && UpdateClashes(dm.appointments, base, client, dateTime.value) ==>
      res.outcome == Failure(SlotConflict)
    ensures service.Some? && dateTime.Success? && !UpdateClashes(dm.appointments, base, client, dateTime.value) ==>
      && res.outcome == Success(Edited(base, client, service.value, dateTime.value))
      && res.data.appointments == AddSorted(RemoveById(dm.appointments, base.id).1, res.outcome.value)
    ensures Valid(dm.appointments) ==> Valid(res.data.appointments)
  {
    match service
    case None => StaffResult(dm, Failure(UnknownService))
    case Some(svc) =>
      match dateTime
      case Failure(e) => StaffResult(dm, Failure(e))
      case Success(dt) =>
        if UpdateClashes(dm.appointments, base, client, dt) then StaffResult(dm, Failure(SlotConflict))
        else
          var a := Edited(base, client, svc, dt);
          StaffResult(dm.(appointments := AddSorted(RemoveById(dm.appointments, base.id).1, a)), Success(a))
  }

  /** The UPDATE EXISTING button, with `selected` the appointment chosen by EDIT and
      `choice` the answer to the client dialog should it open. The scan looks for a clash
      whenever the time or the client differs from the appointment as it was before the
      edit, and a refused update leaves the store as it was. */
  function UpdateAppointment(dm: DataManager, selected: Option<Appointment>, form: AppointmentForm,
                             findClient: string -> Option<Client>, findService: string -> Option<ServiceItem>,
                             freshClientId: string, choice: ClientChoice): (res: StaffResult)
    ensures res.outcome == Failure(NoSelection) <==> selected.None?
    ensures res.outcome == Failure(MissingDetails) <==> selected.Some? && IncompleteForm(form)
    ensures res.outcome == Failure(UpdateCancelled) <==>
      selected.Some? && !IncompleteForm(form) && AsksAboutClient(selected.value, form, findClient) && choice == CancelUpdate
    ensures !UpdateGoesAhead(selected, form, findClient, choice) ==> res.data == dm
    ensures UpdateGoesAhead(selected, form, findClient, choice) ==>
      res.data.clients == RegisterClient(dm, form, findClient, freshClientId).clients
    ensures res.data.services == dm.services
    ensures res.outcome.Failure? ==> res.data.appointments == dm.appointments
    ensures res.outcome == Failure(UnknownService) <==>
      UpdateGoesAhead(selected, form, findClient, choice) && findService(form.serviceName.value).None?
    ensures res.outcome == Failure(InvalidDateTime) || res.outcome == Failure(MissingDate) <==>
      && UpdateGoesAhead(selected, form, findClient, choice) && findService(form.serviceName.value).Some?
      && FormDateTime(form).Failure?
    ensures res.outcome == Failure(InvalidDateTime) || res.outcome == Failure(MissingDate) ==>
      FormDateTime(form) == Failure(res.outcome.error)
    ensures res.outcome == Failure(SlotConflict) <==>
      && UpdateGoesAhead(selected, form, findClient, choice) && findService(form.serviceName.value).Some?
      && FormDateTime(form).Success?
      && UpdateClashes(dm.appointments, selected.value,
                       UpdateClient(selected.value, form, findClient, freshClientId, choice), FormDateTime(form).value)
    ensures res.outcome.Success? <==>
      && UpdateGoesAhead(selected, form, findClient, choice) && findService(form.serviceName.value).Some?
      && FormDateTime(form).Success?
      && !UpdateClashes(dm.appointments, selected.value,
                        UpdateClient(selected.value, form, findClient, freshClientId, choice), FormDateTime(form).value)
    ensures res.outcome.Success? ==>
      var a := res.outcome.value;
      && a.id == selected.value.id && a.confirmed == selected.value.confirmed
      && a.client == UpdateClient(selected.value, form, findClient, freshClientId, choice)
      && findService(form.serviceName.value) == Some(a.service)
      && FormDateTime(form) == Success(a.dateTime)
      && res.data.appointments == AddSorted(RemoveById(dm.appointments, a.id).1, a)
    ensures Valid(dm.appointments) ==> Valid(res.data.appointments)
  {
    match selected
    case None => StaffResult(dm, Failure(NoSelection))
    case Some(current) =>
      if IncompleteForm(form) then StaffResult(dm, Failure(MissingDetails))
      else if AsksAboutClient(current, form, findClient) && choice == CancelUpdate then
        StaffResult(dm, Failure(UpdateCancelled))
      else
        FinishUpdate(RegisterClient(dm, form, findClient, freshClientId), current,
                     UpdateClient(current, form, findClient, freshClientId, choice),
                     findService(form.serviceName.value), FormDateTime(form))
  }

  /** The store step of a successful update, remove-by-id then addSorted of the edited
      appointment `a`. When `a`'s id is in the store the size is unchanged and only the
      first node with that id is swapped for `a`. When it is not, `a` is added and the
      size grows by one. */
  lemma UpdateReplaces(l: AppointmentList, a: Appointment)
    ensures var r := AddSorted(RemoveById(l, a.id).1, a);
      && (HasId(l.items, a.id) ==>
            && Size(r) == Size(l)
            && multiset(r.items) == multiset(l.items) - multiset{l.items[FirstIndexOf(l.items, a.id)]} + multiset{a})
      && (!HasId(l.items, a.id) ==>
            && Size(r) == Size(l) + 1
            && multiset(r.items) == multiset(l.items) + multiset{a})
  {
    if HasId(l.items, a.id) {
      RemoveByIdContents(l, a.id);
    }
  }

  /** Taking out the appointment at `p` leaves no clash with its replacement `a` when `a`
      keeps the old slot or clashes with no appointment of another id. */
  lemma RemovedHasNoClash(s: seq<Appointment>, p: nat, a: Appointment)
    requires NoDoubleBooking(s) && UniqueIds(s) && p < |s| && a.id == s[p].id
    requires SameSlot(a, s[p]) || !ClashesWithOther(s, a.id, a.client, a.dateTime)
    ensures !HasConflict(s[..p] + s[p + 1..], a.client, a.dateTime)
  {
    var r := s[..p] + s[p + 1..];
    forall i | 0 <= i < |r|
      ensures !Clashes(r[i], a.client, a.dateTime)
    {
      var i' := if i < p then i else i + 1;
      assert r[i] == s[i'];
      if i' < p {
        assert !SameSlot(s[i'], s[p]);
      } else {
        assert !SameSlot(s[p], s[i']);
      }
    }
  }

  /** The store step of an update keeps the store free of double bookings when the edited
      appointment either keeps its old slot or clashes with no other appointment. */
  lemma ReplaceKeepsNoDoubleBooking(l: AppointmentList, current: Appointment, a: Appointment)
    requires NoDoubleBooking(l.items) && UniqueIds(l.items)
    requires current in l.items && a.id == current.id
    requires SameSlot(a, current) || !ClashesWithOther(l.items, a.id, a.client, a.dateTime)
    ensures NoDoubleBooking(AddSorted(RemoveById(l, a.id).1, a).items)
  {
    var s := l.items;
    var p :| 0 <= p < |s| && s[p] == current;
    assert FirstIndexOf(s, a.id) == p;
    RemovedHasNoClash(s, p, a);
    RemoveByIdKeepsNoDoubleBooking(l, a.id);
    AddSortedKeepsNoDoubleBooking(RemoveById(l, a.id).1, a);
  }

  /** An update of an appointment in a store with unique ids never double-books a client,
      whichever answer the client dialog gets. */
  lemma UpdateKeepsNoDoubleBooking(dm: DataManager, selected: Option<Appointment>, form: AppointmentForm,
                                   findClient: string -> Option<Client>, findService: string -> Option<ServiceItem>,
                                   freshClientId: string, choice: ClientChoice)
    requires NoDoubleBooking(dm.appointments.items) && UniqueIds(dm.appointments.items)
    requires selected.Some? ==> selected.value in dm.appointments.items
    ensures NoDoubleBooking(UpdateAppointment(dm, selected, form, findClient, findService, freshClientId, choice)
      .data.appointments.items)
  {
    var res := UpdateAppointment(dm, selected, form, findClient, findService, freshClientId, choice);
    if res.outcome.Success? {
      assert ToList(dm.appointments) == dm.appointments.items;
      ReplaceKeepsNoDoubleBooking(dm.appointments, selected.value, res.outcome.value);
    }
  }

  // ----------------------------------------------------- updateAppointment, as written

  /** Java's selectedAppointmentForEdit is the very object stored in the list, so setClient
      on it changes the store at once. That object is the first node with its id. */
  function SwapClient(l: AppointmentList, id: string, client: Client): (r: AppointmentList)
    ensures r.size == l.size && |r.items| == |l.items|
    ensures forall i :: 0 <= i < |l.items| && i != FirstIndexOf(l.items, id) ==> r.items[i] == l.items[i]
    ensures HasId(l.items, id) ==>
      r.items[FirstIndexOf(l.items, id)] == SetClient(l.items[FirstIndexOf(l.items, id)], client)
    ensures Valid(l) ==> Valid(r)
  {
    var k := FirstIndexOf(l.items, id);
    if k < |l.items| then
      var r := l.(items := l.items[k := SetClient(l.items[k], client)]);
      assert forall i :: 0 <= i < |r.items| ==> r.items[i].dateTime == l.items[i].dateTime;
      r
    else l
  }

  /** The as-written update reaches the YES answer of the dialog. */
  predicate SwapsBeforeChecks(selected: Option<Appointment>, form: AppointmentForm,
                              findClient: string -> Option<Client>, choice: ClientChoice) {
    selected.Some? && !IncompleteForm(form) && AdoptsMatching(selected.value, form, findClient, choice)
  }

  /** The appointment the as-written guard compares against: after YES it already holds
      the new client. */
  function AsWrittenBase(current: Appointment, form: AppointmentForm, findClient: string -> Option<Client>,
                         freshClientId: string, choice: ClientChoice): Appointment
  {
    if AdoptsMatching(current, form, findClient, choice)
    then SetClient(current, UpdateClient(current, form, findClient, freshClientId, choice))
    else current
  }

  /** The store the as-written update goes on with: after YES the stored appointment
      already holds the new client. */
  function AsWrittenStore(l: AppointmentList, current: Appointment, form: AppointmentForm,
                          findClient: string -> Option<Client>, freshClientId: string, choice: ClientChoice): AppointmentList
  {
    if AdoptsMatching(current, form, findClient, choice)
    then SwapClient(l, current.id, UpdateClient(current, form, findClient, freshClientId, choice))
    else l
  }

  /** updateAppointment as the source writes it. Answering YES calls setClient on the
      selected appointment straight away, so the store holds the new client even when a
      later step refuses the update. The conflict guard then compares the new client with
      the appointment's already swapped client, so it only scans when the time changes. */
  function UpdateAppointmentAsWritten(dm: DataManager, selected: Option<Appointment>, form: AppointmentForm,
                                      findClient: string -> Option<Client>, findService: string -> Option<ServiceItem>,
                                      freshClientId: string, choice: ClientChoice): (res: StaffResult)
    ensures res.outcome == Failure(NoSelection) <==> selected.None?
    ensures res.outcome == Failure(MissingDetails) <==> selected.Some? && IncompleteForm(form)
    ensures res.outcome == Failure(UpdateCancelled) <==>
      selected.Some? && !IncompleteForm(form) && AsksAboutClient(selected.value, form, findClient) && choice == CancelUpdate
    ensures !UpdateGoesAhead(selected, form, findClient, choice) ==> res.data == dm
    ensures UpdateGoesAhead(selected, form, findClient, choice) ==>
      res.data.clients == RegisterClient(dm, form, findClient, freshClientId).clients
    ensures res.data.services == dm.services
    ensures res.outcome == Failure(UnknownService) <==>
      UpdateGoesAhead(selected, form, findClient, choice) && findService(form.serviceName.value).None?
    ensures res.outcome == Failure(InvalidDateTime) || res.outcome == Failure(MissingDate) <==>
      && UpdateGoesAhead(selected, form, findClient, choice) && findService(form.serviceName.value).Some?
      && FormDateTimeAsWritten(form).Failure?
    ensures res.outcome == Failure(SlotConflict) <==>
      && UpdateGoesAhead(selected, form, findClient, choice) && findService(form.serviceName.value).Some?
      && FormDateTimeAsWritten(form).Success?
      && UpdateClashes(AsWrittenStore(dm.appointments, selected.value, form, findClient, freshClientId, choice),
                       AsWrittenBase(selected.value, form, findClient, freshClientId, choice),
                       UpdateClient(selected.value, form, findClient, freshClientId, choice),
                       FormDateTimeAsWritten(form).value)
    ensures res.outcome.Success? <==>
      && UpdateGoesAhead(selected, form, findClient, choice) && findService(form.serviceName.value).Some?
      && FormDateTimeAsWritten(form).Success?
      && !UpdateClashes(AsWrittenStore(dm.appointments, selected.value, form, findClient, freshClientId, choice),
                        AsWrittenBase(selected.value, form, findClient, freshClientId, choice),
                        UpdateClient(selected.value, form, findClient, freshClientId, choice),
                        FormDateTimeAsWritten(form).value)
    ensures res.outcome.Failure? && SwapsBeforeChecks(selected, form, findClient, choice) ==>
      res.data.appointments == SwapClient(dm.appointments, selected.value.id, findClient(Trim(form.contact)).value)
    ensures res.outcome.Failure? && !SwapsBeforeChecks(selected, form, findClient, choice) ==>
      res.data.appointments == dm.appointments
    ensures res.outcome.Success? ==>
      var a := res.outcome.value;
      && a.id == selected.value.id && a.confirmed == selected.value.confirmed
      && a.client == UpdateClient(selected.value, form, findClient, freshClientId, choice)
      && findService(form.serviceName.value) == Some(a.service)
      && FormDateTimeAsWritten(form) == Success(a.dateTime)
      && (AdoptsMatching(selected.value, form, findClient, choice) ==>
            res.data.appointments ==
              AddSorted(RemoveById(SwapClient(dm.appointments, a.id, a.client), a.id).1, a))
      && (!AdoptsMatching(selected.value, form, findClient, choice) ==>
            res.data.appointments == AddSorted(RemoveById(dm.appointments, a.id).1, a))
    ensures Valid(dm.appointments) ==> Valid(res.data.appointments)
  {
    match selected
    case None => StaffResult(dm, Failure(NoSelection))
    case Some(current) =>
      if IncompleteForm(form) then StaffResult(dm, Failure(MissingDetails))
      else if AsksAboutClient(current, form, findClient) && choice == CancelUpdate then
        StaffResult(dm, Failure(UpdateCancelled))
      else
        var dm0 := dm.(appointments := AsWrittenStore(dm.appointments, current, form, findClient, freshClientId, choice));
        assert RegisterClient(dm0, form, findClient, freshClientId).clients
          == RegisterClient(dm, form, findClient, freshClientId).clients;
        FinishUpdate(RegisterClient(dm0, form, findClient, freshClientId),
                     AsWrittenBase(current, form, findClient, freshClientId, choice),
                     UpdateClient(current, form, findClient, freshClientId, choice),
                     findService(form.serviceName.value), FormDateTimeAsWritten(form))
  }

  /** Away from the YES answer and from a date the program set, the update as written and
      the corrected one are the same: the two differ only in the two faults of the handler. */
  lemma UpdateVersionsAgree(dm: DataManager, selected: Option<Appointment>, form: AppointmentForm,
                            findClient: string -> Option<Client>, findService: string -> Option<ServiceItem>,
                            freshClientId: string, choice: ClientChoice)
    requires !SwapsBeforeChecks(selected, form, findClient, choice) && !form.date.SetByProgram?
    ensures UpdateAppointmentAsWritten(dm, selected, form, findClient, findService, freshClientId, choice)
      == UpdateAppointment(dm, selected, form, findClient, findService, freshClientId, choice)
  {
  }

  /** Two appointments at 2025-12-12 10:30, A1 for Alice and A2 for Ben. */
  const ClashTime: LocalDateTime := DateTime(Date(2025, 12, 12), 10, 30, 0, 0)
  const A1 := Appointment("A1", Alice, Haircut, ClashTime, true)
  const A2 := Appointment("A2", Ben, Haircut, ClashTime, true)
  const ClashStore := AppointmentList([A1, A2], 2)

  /** A1 edited to the name "Robert" with Ben's phone, at the same time. */
  const ClashForm := AppointmentForm("Robert", Ben.phone, Some("Haircut"), 10, 30, AM, Committed(Date(2025, 12, 12)))

  function ClashLookup(contact: string): Option<Client> {
    if contact == Ben.phone then Some(Ben) else None
  }

  function ClashService(name: string): Option<ServiceItem> {
    Some(Haircut)
  }

  const ClashData := DataManager([Alice, Ben], [Haircut], ClashStore)

  /** Adopting Ben for A1 at the unchanged time: the update as written skips the scan and
      books Ben twice at 10:30, in a store that had no double booking. */
  lemma UpdateDoubleBooksAsWritten()
    ensures NoDoubleBooking(ClashStore.items)
    ensures var res := UpdateAppointmentAsWritten(ClashData, Some(A1), ClashForm, ClashLookup, ClashService,
                                                  "C003", AdoptMatching);
      res.outcome.Success? && !NoDoubleBooking(res.data.appointments.items)
  {
    ClashStoreFacts();
    ClashAsWrittenResult();
    var items := [A2, Edited(SetClient(A1, Ben), Ben, Haircut, ClashTime)];
    assert SameSlot(items[0], items[1]);
  }

  /** The as-written update of the clash example: success, with the store holding A2 and the
      edited A1, now Ben's. */
  lemma ClashAsWrittenResult()
    ensures var res := UpdateAppointmentAsWritten(ClashData, Some(A1), ClashForm, ClashLookup, ClashService,
                                                  "C003", AdoptMatching);
      res.outcome == Success(Edited(SetClient(A1, Ben), Ben, Haircut, ClashTime)) &&
      res.data.appointments.items == [A2, Edited(SetClient(A1, Ben), Ben, Haircut, ClashTime)]
  {
    ClashAsWrittenSteps();
    assert !NeedsConflictScan(SetClient(A1, Ben), Ben, ClashTime);
    ClashStoreAfterSwap(Edited(SetClient(A1, Ben), Ben, Haircut, ClashTime));
  }

  /** The YES answer makes A1 Ben's in the store before the remaining steps run. */
  lemma ClashAsWrittenSteps()
    ensures UpdateAppointmentAsWritten(ClashData, Some(A1), ClashForm, ClashLookup, ClashService, "C003", AdoptMatching)
      == FinishUpdate(ClashData.(appointments := SwapClient(ClashStore, "A1", Ben)), SetClient(A1, Ben), Ben,
                      Some(Haircut), Success(ClashTime))
  {
    ClashFormFacts();
    assert AdoptsMatching(A1, ClashForm, ClashLookup, AdoptMatching);
    assert UpdateClient(A1, ClashForm, ClashLookup, "C003", AdoptMatching) == Ben;
  }

  lemma ClashStoreFacts()
    ensures Valid(ClashStore) && NoDoubleBooking(ClashStore.items) && UniqueIds(ClashStore.items)
  {
    assert !SameSlot(A1, A2);
  }

  lemma ClashStoreAfterSwap(a: Appointment)
    requires a.id == "A1" && a.dateTime == ClashTime
    ensures AddSorted(RemoveById(SwapClient(ClashStore, "A1", Ben), "A1").1, a).items == [A2, a]
  {
    var swapped := SwapClient(ClashStore, "A1", Ben);
    assert swapped.items == [SetClient(A1, Ben), A2];
    assert RemoveById(swapped, "A1").1.items == [A2];
    assert Insert([A2], a) == [A2, a];
  }

  /** The corrected update refuses the same edit as a conflict with A2. */
  lemma UpdateRefusesDoubleBooking()
    ensures UpdateAppointment(ClashData, Some(A1), ClashForm, ClashLookup, ClashService, "C003", AdoptMatching).outcome
      == Failure(SlotConflict)
  {
    ClashCorrectedSteps();
    ClashCorrectedGuard();
  }

  /** Ben's A2 sits at the slot the edit of A1 asks for. */
  lemma ClashCorrectedGuard()
    ensures UpdateClashes(ClashStore, A1, Ben, ClashTime)
  {
    assert ToList(ClashStore)[1] == A2;
  }

  /** The corrected update of the clash example keeps A1 as the base of its guard. */
  lemma ClashCorrectedSteps()
    ensures UpdateAppointment(ClashData, Some(A1), ClashForm, ClashLookup, ClashService, "C003", AdoptMatching)
      == FinishUpdate(ClashData, A1, Ben, Some(Haircut), Success(ClashTime))
  {
    ClashFormFacts();
    assert UpdateClient(A1, ClashForm, ClashLookup, "C003", AdoptMatching) == Ben;
  }

  lemma ClashFormFacts()
    ensures !IncompleteForm(ClashForm) && AsksAboutClient(A1, ClashForm, ClashLookup)
    ensures FormClient(ClashForm, ClashLookup, "C003") == Ben
    ensures FormDateTime(ClashForm) == Success(ClashTime) && FormDateTimeAsWritten(ClashForm) == Success(ClashTime)
  {
    assert Trim(ClashForm.contact) == Ben.phone;
    assert Trim(ClashForm.clientName) == "Robert";
    assert !EqualsIgnoreCase(Ben.name, "Robert");
  }

  // ------------------------------------------------------- populateFormForEdit

  /** The EDIT button fills the form from an appointment: its client's name and phone,
      its service name, its date (stored by the program), and its time on the 12-hour combos. */
  function PopulateFormForEdit(a: Appointment): (form: AppointmentForm)
    ensures form.clientName == a.client.name && form.contact == a.client.phone
    ensures form.serviceName == Some(a.service.name) && form.date == SetByProgram(a.dateTime.date)
    ensures ClockFace(form.hour, form.meridiem) == To12Hour(a.dateTime.hour)
    ensures form.minute % 5 == 0 && form.minute <= a.dateTime.minute < form.minute + 5
  {
    var face := To12Hour(a.dateTime.hour);
    AppointmentForm(a.client.name, a.client.phone, Some(a.service.name),
                    face.hour, MinuteSlot(a.dateTime.minute), face.meridiem, SetByProgram(a.dateTime.date))
  }

  /** Re-submitting an unchanged edit form gives the appointment's date and hour back, its
      minute rounded down to a multiple of five and its seconds dropped; an appointment on
      a five-minute mark with no seconds comes back exactly. The handlers as written read
      the same time back only once the user has re-committed the date. */
  lemma EditFormRoundTrip(a: Appointment)
    ensures FormDateTime(PopulateFormForEdit(a)) ==
      Success(DateTime(a.dateTime.date, a.dateTime.hour, MinuteSlot(a.dateTime.minute), 0, 0))
    ensures a.dateTime.minute % 5 == 0 && a.dateTime.second == 0 && a.dateTime.nano == 0 ==>
      FormDateTime(PopulateFormForEdit(a)) == Success(a.dateTime)
    ensures FormDateTimeAsWritten(PopulateFormForEdit(a).(date := Committed(a.dateTime.date))) ==
      FormDateTime(PopulateFormForEdit(a))
  {
  }

  /** As written, the date EDIT puts in the field cannot be read back: re-submitting the
      form unchanged is always refused as an invalid date or time. */
  lemma EditFormRefusedAsWritten(a: Appointment)
    ensures FormDateTime(PopulateFormForEdit(a)).Success?
    ensures FormDateTimeAsWritten(PopulateFormForEdit(a)) == Failure(InvalidDateTime)
  {
  }

  // --------------------------------------------------- confirmCancelAppointment

  /** The staff CANCEL button, once confirmed: the appointment is removed by id straight
      away. No cancellation request is created and no other field changes. */
  function CancelAppointment(dm: DataManager, a: Appointment): (r: DataManager)
    ensures r == dm.(appointments := RemoveById(dm.appointments, a.id).1)
    ensures r.clients == dm.clients && r.services == dm.services
    ensures HasId(dm.appointments.items, a.id) ==> Size(r.appointments) == Size(dm.appointments) - 1
    ensures !HasId(dm.appointments.items, a.id) ==> r == dm
    ensures UniqueIds(dm.appointments.items) ==> FindById(ToList(r.appointments), a.id) == None
    ensures Valid(dm.appointments) ==> Valid(r.appointments)
  {
    if UniqueIds(dm.appointments.items) then
      RemovedIdIsGone(dm.appointments, a.id);
      dm.(appointments := RemoveById(dm.appointments, a.id).1)
    else dm.(appointments := RemoveById(dm.appointments, a.id).1)
  }

  // ------------------------------------------------ refreshScheduledAppointments

  /** The list of appointment cards: the whole store when the search text is null or
      blank, otherwise a search with the text as typed (it is not trimmed). */
  function ScheduledAppointments(dm: DataManager, searchText: Option<string>): (r: seq<Appointment>)
    ensures searchText.None? || IsBlank(searchText.value) ==> r == ToList(dm.appointments)
    ensures searchText.Some? && !IsBlank(searchText.value) ==>
      r == Filter(ToList(dm.appointments), MatchesKey(ToLower(searchText.value)))
    ensures searchText.Some? && !IsBlank(searchText.value) ==>
      forall x :: multiset(r)[x] ==
        (if NameMatches(x, ToLower(searchText.value)) then multiset(dm.appointments.items)[x] else 0)
    ensures Valid(dm.appointments) ==> Sorted(r)
  {
    if searchText.None? || IsBlank(searchText.value) then ToList(dm.appointments)
    else
      SearchIsFilter(ToList(dm.appointments), searchText);
      SearchByClientName(ToList(dm.appointments), searchText)
  }
}

=== FILE: store.dfy ===
/** models/AppointmentLinkedList: the time-ordered appointment store.
    The chain of nodes is the sequence `items`; the `size` counter is kept beside it,
    exactly as the class keeps it beside `head`. Queries walk the chain, so they take
    the chain's contents. */
module Store {
  import opened Wrappers
  import opened Text
  import opened Time
  import opened Models

  /** Non-decreasing by dateTime: no element is strictly before an earlier one. */
  predicate Sorted(s: seq<Appointment>) {
    forall i, j :: 0 <= i < j < |s| ==> !IsBefore(s[j].dateTime, s[i].dateTime)
  }

  datatype AppointmentList = AppointmentList(items: seq<Appointment>, size: int)

  /** A freshly constructed list: no head, size 0. */
  const EmptyList := AppointmentList([], 0)

  /** The invariant every operation keeps: the counter matches the chain and the chain is ordered. */
  predicate Valid(l: AppointmentList) {
    l.size == |l.items| && Sorted(l.items)
  }

  // ---------------------------------------------------------------- addSorted

  /** Where addSorted links the new node: in front of the first element whose time is
      strictly later than the new one, or at the tail when there is none. Elements with
      an equal time are passed over, so ties keep insertion order. */
  function SlotFor(s: seq<Appointment>, a: Appointment): (k: nat)
    ensures k <= |s|
    ensures forall i :: 0 <= i < k ==> !IsBefore(a.dateTime, s[i].dateTime)
    ensures k < |s| ==> IsBefore(a.dateTime, s[k].dateTime)
  {
    if |s| == 0 || IsBefore(a.dateTime, s[0].dateTime) then 0 else 1 + SlotFor(s[1..], a)
  }

  /** The relinking of addSorted: the head case when the list is empty or the new time is
      strictly before the head's, otherwise the walk to the last node not after it. */
  function Insert(s: seq<Appointment>, a: Appointment): (r: seq<Appointment>)
    ensures r == s[..SlotFor(s, a)] + [a] + s[SlotFor(s, a)..]
  {
    if |s| == 0 || IsBefore(a.dateTime, s[0].dateTime) then [a] + s
    else
      assert s == [s[0]] + s[1..];
      [s[0]] + Insert(s[1..], a)
  }

  /** Two insertions into the empty list, the second not before the first, keep their order. */
  lemma InsertTwo(x: Appointment, a: Appointment)
    requires !IsBefore(a.dateTime, x.dateTime)
    ensures Insert(Insert([], x), a) == [x, a]
  {
    assert Insert([], x) == [x];
    assert SlotFor([x], a) == 1;
  }

  /** Inserting keeps every old element and adds exactly the new one. */
  lemma InsertContents(s: seq<Appointment>, a: Appointment)
    ensures |Insert(s, a)| == |s| + 1
    ensures multiset(Insert(s, a)) == multiset(s) + multiset{a}
  {
    var k := SlotFor(s, a);
    var r := Insert(s, a);
    assert s == s[..k] + s[k..];
    calc {
      multiset(r);
      multiset(s[..k] + [a] + s[k..]);
      multiset(s[..k]) + multiset{a} + multiset(s[k..]);
      multiset(s[..k]) + multiset(s[k..]) + multiset{a};
      multiset(s) + multiset{a};
    }
  }

  /** On an ordered list, everything from the slot on is strictly later than the new element. */
  lemma BehindSlotIsLater(s: seq<Appointment>, a: Appointment)
    requires Sorted(s)
    ensures forall j :: SlotFor(s, a) <= j < |s| ==> IsBefore(a.dateTime, s[j].dateTime)
  {
    var k := SlotFor(s, a);
    forall j | k < j < |s|
      ensures IsBefore(a.dateTime, s[j].dateTime)
    {
      assert !IsBefore(s[j].dateTime, s[k].dateTime);
      IsBeforeTotal(s[j].dateTime, s[k].dateTime);
      if s[j].dateTime != s[k].dateTime {
        IsBeforeTransitive(a.dateTime, s[k].dateTime, s[j].dateTime);
      }
    }
  }

  /** addSorted on an ordered list leaves it ordered. */
  lemma InsertKeepsSorted(s: seq<Appointment>, a: Appointment)
    requires Sorted(s)
    ensures Sorted(Insert(s, a))
  {
    var k := SlotFor(s, a);
    BehindSlotIsLater(s, a);
    SpliceSorted(s, a, k);
  }

  lemma SpliceSorted(s: seq<Appointment>, a: Appointment, k: nat)
    requires Sorted(s) && k <= |s|
    requires forall i :: 0 <= i < k ==> !IsBefore(a.dateTime, s[i].dateTime)
    requires forall j :: k <= j < |s| ==> IsBefore(a.dateTime, s[j].dateTime)
    ensures Sorted(s[..k] + [a] + s[k..])
  {
    var r := s[..k] + [a] + s[k..];
    assert forall x :: 0 <= x < k ==> r[x] == s[x];
    assert r[k] == a;
    assert forall x :: k < x < |r| ==> r[x] == s[x - 1];
    forall i, j | 0 <= i < j < |r|
      ensures !IsBefore(r[j].dateTime, r[i].dateTime)
    {
      if i == k {
        IsBeforeAsymmetric(a.dateTime, s[j - 1].dateTime);
      }
    }
  }

  /** Stability: on an ordered list, every existing element whose time equals the new
      one's ends up in front of it, and every element behind it is strictly later. */
  lemma InsertIsStable(s: seq<Appointment>, a: Appointment)
    requires Sorted(s)
    ensures var k := SlotFor(s, a);
      && Insert(s, a)[k] == a
      && (forall i :: 0 <= i < |s| && s[i].dateTime == a.dateTime ==> i < k)
      && (forall j :: k <= j < |s| ==> IsBefore(a.dateTime, s[j].dateTime))
  {
    BehindSlotIsLater(s, a);
  }

  /** addSorted: one more node, linked at its slot; the invariant is kept. */
  function AddSorted(l: AppointmentList, a: Appointment): (r: AppointmentList)
    ensures r.size == l.size + 1
    ensures r.items == Insert(l.items, a)
    ensures |r.items| == |l.items| + 1
    ensures multiset(r.items) == multiset(l.items) + multiset{a}
    ensures r.items[SlotFor(l.items, a)] == a
    ensures Valid(l) ==> Valid(r)
  {
    InsertContents(l.items, a);
    if Sorted(l.items) then InsertKeepsSorted(l.items, a); AppointmentList(Insert(l.items, a), l.size + 1)
    else AppointmentList(Insert(l.items, a), l.size + 1)
  }

  // ------------------------------------------------------- removeById / findById

  predicate HasId(s: seq<Appointment>, id: string) {
    exists i :: 0 <= i < |s| && s[i].id == id
  }

  /** The position of the first element carrying `id`, or |s| when there is none. */
  function FirstIndexOf(s: seq<Appointment>, id: string): (k: nat)
    ensures k <= |s|
    ensures forall j :: 0 <= j < k ==> s[j].id != id
    ensures k < |s| ==> s[k].id == id
    ensures k < |s| <==> HasId(s, id)
  {
    if |s| == 0 then 0
    else if s[0].id == id then 0
    else 1 + FirstIndexOf(s[1..], id)
  }

  datatype Removal = Removal(found: bool, rest: seq<Appointment>)

  /** The unlinking walk of removeById: the head when it matches, otherwise the first
      successor that matches; the walk stops at the first match. */
  function RemoveFirst(s: seq<Appointment>, id: string): (r: Removal)
    ensures r.found <==> HasId(s, id)
    ensures r.found ==> r.rest == s[..FirstIndexOf(s, id)] + s[FirstIndexOf(s, id) + 1..]
    ensures !r.found ==> r.rest == s
  {
    if |s| == 0 then Removal(false, s)
    else if s[0].id == id then Removal(true, s[1..])
    else
      var r := RemoveFirst(s[1..], id);
      if r.found then
        ConsDelete(s, FirstIndexOf(s[1..], id));
        Removal(true, [s[0]] + r.rest)
      else
        assert s == [s[0]] + s[1..];
        Removal(false, [s[0]] + r.rest)
  }

  /** Deleting position k of the tail is deleting position k + 1 of the whole. */
  lemma ConsDelete(s: seq<Appointment>, k: nat)
    requires k + 1 < |s|
    ensures [s[0]] + (s[1..][..k] + s[1..][k + 1..]) == s[..k + 1] + s[k + 2..]
  {
    assert [s[0]] + s[1..][..k] == s[..k + 1];
    assert s[1..][k + 1..] == s[k + 2..];
  }

  /** Deleting one position of an ordered sequence leaves it ordered. */
  lemma DeleteKeepsSorted(s: seq<Appointment>, k: nat)
    requires Sorted(s) && k < |s|
    ensures Sorted(s[..k] + s[k + 1..])
  {
    var r := s[..k] + s[k + 1..];
    forall i, j | 0 <= i < j < |r|
      ensures !IsBefore(r[j].dateTime, r[i].dateTime)
    {
      var i' := if i < k then i else i + 1;
      var j' := if j < k then j else j + 1;
      assert r[i] == s[i'] && r[j] == s[j'] && i' < j';
    }
  }

  /** removeById: true iff some element has the id; then exactly the first such element
      is unlinked and the counter drops by one; otherwise nothing changes. */
  function RemoveById(l: AppointmentList, id: string): (res: (bool, AppointmentList))
    ensures res.0 <==> HasId(l.items, id)
    ensures res.0 ==> res.1.size == l.size - 1
    ensures res.0 ==> var k := FirstIndexOf(l.items, id); res.1.items == l.items[..k] + l.items[k + 1..]
    ensures !res.0 ==> res.1 == l
    ensures Valid(l) ==> Valid(res.1)
  {
    var r := RemoveFirst(l.items, id);
    if r.found then
      if Sorted(l.items) then
        DeleteKeepsSorted(l.items, FirstIndexOf(l.items, id));
        (true, AppointmentList(r.rest, l.size - 1))
      else (true, AppointmentList(r.rest, l.size - 1))
    else (false, l)
  }

  /** The element removeById unlinks is the only one that leaves. */
  lemma RemoveByIdContents(l: AppointmentList, id: string)
    requires HasId(l.items, id)
    ensures var k := FirstIndexOf(l.items, id);
      multiset(RemoveById(l, id).1.items) == multiset(l.items) - multiset{l.items[k]}
  {
    var s := l.items;
    var k := FirstIndexOf(s, id);
    assert s == s[..k] + ([s[k]] + s[k + 1..]);
    assert multiset(s) == multiset(s[..k]) + multiset{s[k]} + multiset(s[k + 1..]);
    assert multiset(s[..k] + s[k + 1..]) == multiset(s[..k]) + multiset(s[k + 1..]);
  }

  /** findById: the first element carrying the id, or None (Java's null). */
  function FindById(s: seq<Appointment>, id: string): (r: Option<Appointment>)
    ensures r.Some? <==> HasId(s, id)
    ensures r.Some? ==> r.value == s[FirstIndexOf(s, id)]
  {
    if |s| == 0 then None
    else if s[0].id == id then Some(s[0])
    else FindById(s[1..], id)
  }

  /** With unique ids, removing an id leaves no element carrying it. */
  predicate UniqueIds(s: seq<Appointment>) {
    forall i, j :: 0 <= i < j < |s| ==> s[i].id != s[j].id
  }

  lemma RemovedIdIsGone(l: AppointmentList, id: string)
    requires UniqueIds(l.items)
    ensures !HasId(RemoveById(l, id).1.items, id)
    ensures FindById(RemoveById(l, id).1.items, id) == None
  {
    if HasId(l.items, id) {
      var k := FirstIndexOf(l.items, id);
      var r := RemoveById(l, id).1.items;
      forall i | 0 <= i < |r|
        ensures r[i].id != id
      {
        if i >= k {
          assert r[i] == l.items[i + 1];
        }
      }
    }
  }

  // ------------------------------------------------------------ size / toList

  /** size(): the counter, which on a valid list is the number of nodes. */
  function Size(l: AppointmentList): (n: int)
    ensures Valid(l) ==> n == |l.items|
  {
    l.size
  }

  /** toList: the nodes' data in chain order; on a valid list, `size` elements, ordered. */
  function ToList(l: AppointmentList): (r: seq<Appointment>)
    ensures Valid(l) ==> |r| == l.size && Sorted(r)
    ensures |r| == |l.items|
    ensures forall i :: 0 <= i < |r| ==> r[i] == l.items[i]
  {
    l.items
  }

  // ------------------------------------------------------------------ filter

  /** filter: the elements satisfying the predicate, in chain order. */
  function Filter(s: seq<Appointment>, p: Appointment -> bool): (r: seq<Appointment>)
    ensures |r| <= |s|
    ensures forall i :: 0 <= i < |r| ==> p(r[i])
  {
    if |s| == 0 then []
    else (if p(s[0]) then [s[0]] else []) + Filter(s[1..], p)
  }

  /** Filtering keeps each element satisfying the predicate as often as it occurs, and no other. */
  lemma {:induction false} FilterContents(s: seq<Appointment>, p: Appointment -> bool)
    ensures forall x :: multiset(Filter(s, p))[x] == if p(x) then multiset(s)[x] else 0
    decreases |s|
  {
    if |s| > 0 {
      FilterContents(s[1..], p);
      assert s == [s[0]] + s[1..];
      var h := if p(s[0]) then [s[0]] else [];
      assert multiset(Filter(s, p)) == multiset(h) + multiset(Filter(s[1..], p));
    }
  }

  /** Filtering commutes with concatenation, so it keeps the relative order of what it keeps. */
  lemma {:induction false} FilterAppend(s: seq<Appointment>, t: seq<Appointment>, p: Appointment -> bool)
    ensures Filter(s + t, p) == Filter(s, p) + Filter(t, p)
    decreases |s|
  {
    if |s| > 0 {
      var st := s + t;
      assert st[0] == s[0];
      assert st[1..] == s[1..] + t;
      FilterAppend(s[1..], t, p);
      var h := if p(s[0]) then [s[0]] else [];
      assert Filter(st, p) == h + Filter(st[1..], p);
      assert Filter(s, p) == h + Filter(s[1..], p);
      var a, b := Filter(s[1..], p), Filter(t, p);
      assert Filter(st, p) == h + (a + b);
      assert h + (a + b) == (h + a) + b;
    } else {
      assert s + t == t;
    }
  }

  /** An ordered chain filters to an ordered list. */
  lemma {:induction false} FilterKeepsSorted(s: seq<Appointment>, p: Appointment -> bool)
    requires Sorted(s)
    ensures Sorted(Filter(s, p))
    decreases |s|
  {
    if |s| > 0 {
      var tail := Filter(s[1..], p);
      assert Sorted(s[1..]);
      FilterKeepsSorted(s[1..], p);
      FilterContents(s[1..], p);
      forall x | x in tail
        ensures !IsBefore(x.dateTime, s[0].dateTime)
      {
        assert multiset(tail)[x] > 0;
        assert x in multiset(s[1..]);
        var j :| 0 <= j < |s[1..]| && s[1..][j] == x;
        assert s[j + 1] == x;
      }
    }
  }

  /** A predicate every element satisfies filters nothing out. */
  lemma {:induction false} FilterKeepsAll(s: seq<Appointment>, p: Appointment -> bool)
    requires forall i :: 0 <= i < |s| ==> p(s[i])
    ensures Filter(s, p) == s
    decreases |s|
  {
    if |s| > 0 {
      FilterKeepsAll(s[1..], p);
    }
  }

  // ------------------------------------------------------------- hasConflict

  /** The conflict rule: same client id and exactly the same instant. */
  predicate Clashes(a: Appointment, client: Client, dateTime: LocalDateTime) {
    a.client.id == client.id && a.dateTime == dateTime
  }

  /** hasConflict: whether any element clashes with (client, dateTime). */
  function HasConflict(s: seq<Appointment>, client: Client, dateTime: LocalDateTime): (r: bool)
    ensures r <==> exists i :: 0 <= i < |s| && Clashes(s[i], client, dateTime)
  {
    if |s| == 0 then false
    else if Clashes(s[0], client, dateTime) then true
    else
      assert forall i :: 1 <= i < |s| ==> s[i] == s[1..][i - 1];
      HasConflict(s[1..], client, dateTime)
  }

  /** Two appointments of one client at one date-time. */
  predicate SameSlot(a: Appointment, b: Appointment) {
    a.client.id == b.client.id && a.dateTime == b.dateTime
  }

  /** No client holds two appointments at one date-time: the state hasConflict is there
      to keep. */
  predicate NoDoubleBooking(s: seq<Appointment>) {
    forall i, j {:trigger SameSlot(s[i], s[j])} :: 0 <= i < j < |s| ==> !SameSlot(s[i], s[j])
  }

  /** addSorted of an appointment that hasConflict finds no clash for keeps the store free
      of double bookings. */
  lemma AddSortedKeepsNoDoubleBooking(l: AppointmentList, a: Appointment)
    requires NoDoubleBooking(l.items)
    requires !HasConflict(l.items, a.client, a.dateTime)
    ensures NoDoubleBooking(AddSorted(l, a).items)
  {
    var k := SlotFor(l.items, a);
    assert AddSorted(l, a).items == l.items[..k] + [a] + l.items[k..];
    InsertKeepsNoDoubleBooking(l.items, k, a);
  }

  lemma InsertKeepsNoDoubleBooking(s: seq<Appointment>, k: nat, a: Appointment)
    requires NoDoubleBooking(s) && k <= |s|
    requires !HasConflict(s, a.client, a.dateTime)
    ensures NoDoubleBooking(s[..k] + [a] + s[k..])
  {
    var r := s[..k] + [a] + s[k..];
    forall i, j | 0 <= i < j < |r|
      ensures !SameSlot(r[i], r[j])
    {
      InsertedPair(s, k, a, i, j);
    }
  }

  /** One pair of positions of the store with `a` inserted at `k`. */
  lemma InsertedPair(s: seq<Appointment>, k: nat, a: Appointment, i: nat, j: nat)
    requires NoDoubleBooking(s) && k <= |s|
    requires forall m :: 0 <= m < |s| ==> !Clashes(s[m], a.client, a.dateTime)
    requires i < j < |s| + 1
    ensures var r := s[..k] + [a] + s[k..]; !SameSlot(r[i], r[j])
  {
    var r := s[..k] + [a] + s[k..];
    if i == k {
      assert r[j] == s[j - 1];
    } else if j == k {
      assert r[i] == s[i];
    } else if j < k {
      assert r[i] == s[i] && r[j] == s[j];
    } else if i < k {
      assert r[i] == s[i] && r[j] == s[j - 1];
    } else {
      assert r[i] == s[i - 1] && r[j] == s[j - 1];
    }
  }

  lemma DeleteKeepsNoDoubleBooking(s: seq<Appointment>, k: nat)
    requires NoDoubleBooking(s) && k < |s|
    ensures NoDoubleBooking(s[..k] + s[k + 1..])
  {
    var r := s[..k] + s[k + 1..];
    forall i, j | 0 <= i < j < |r|
      ensures !SameSlot(r[i], r[j])
    {
      var i' := if i < k then i else i + 1;
      var j' := if j < k then j else j + 1;
      assert r[i] == s[i'] && r[j] == s[j'] && i' < j';
    }
  }

  /** removeById never creates a double booking. */
  lemma RemoveByIdKeepsNoDoubleBooking(l: AppointmentList, id: string)
    requires NoDoubleBooking(l.items)
    ensures NoDoubleBooking(RemoveById(l, id).1.items)
  {
    if HasId(l.items, id) {
      DeleteKeepsNoDoubleBooking(l.items, FirstIndexOf(l.items, id));
    }
  }

  // ------------------------------------------------------ searchByClientName

  /** The search key: a null search text behaves as "", anything else is lower-cased. */
  function SearchKey(namePart: Option<string>): (key: string)
    ensures namePart.None? ==> key == ""
    ensures namePart.Some? ==> key == ToLower(namePart.value)
  {
    match namePart
    case None => ""
    case Some(text) => ToLower(text)
  }

  predicate NameMatches(a: Appointment, key: string) {
    Contains(ToLower(a.client.name), key)
  }

  /** The test searchByClientName applies to each node. */
  function MatchesKey(key: string): Appointment -> bool {
    a => NameMatches(a, key)
  }

  /** searchByClientName: exactly the elements whose lower-cased client name contains the
      lower-cased key, each as often as it occurs, in chain order. */
  function SearchByClientName(s: seq<Appointment>, namePart: Option<string>): (r: seq<Appointment>)
    ensures forall x :: multiset(r)[x] == (if NameMatches(x, SearchKey(namePart)) then multiset(s)[x] else 0)
    ensures forall i :: 0 <= i < |r| ==> NameMatches(r[i], SearchKey(namePart))
    ensures Sorted(s) ==> Sorted(r)
  {
    var key := SearchKey(namePart);
    FilterContents(s, MatchesKey(key));
    if Sorted(s) then FilterKeepsSorted(s, MatchesKey(key)); Filter(s, MatchesKey(key))
    else Filter(s, MatchesKey(key))
  }

  /** The search walks the chain once and keeps each matching node where it stands: it is
      the chain filtered by the key, so the results keep chain order (`FilterAppend`). */
  lemma SearchIsFilter(s: seq<Appointment>, namePart: Option<string>)
    ensures SearchByClientName(s, namePart) == Filter(s, MatchesKey(SearchKey(namePart)))
  {
  }

  /** A null or empty search text matches every appointment, so the whole chain comes back. */
  lemma SearchWithoutKeyKeepsAll(s: seq<Appointment>, namePart: Option<string>)
    requires namePart.None? || namePart.value == ""
    ensures SearchByClientName(s, namePart) == s
  {
    var key := SearchKey(namePart);
    assert key == "";
    forall i | 0 <= i < |s|
      ensures NameMatches(s[i], key)
    {
      ContainsEmpty(ToLower(s[i].client.name));
    }
    FilterKeepsAll(s, a => NameMatches(a, key));
  }
}

=== FILE: text.dfy ===
/** The few java.lang.String operations the scheduling core relies on:
    trim, ASCII lower-casing, substring search, and zero-padded decimals. */
module Text {

  /** String.trim removes every leading and trailing char whose code is at most U+0020. */
  predicate IsTrimmable(c: char) {
    c <= ' '
  }

  predicate AllTrimmable(s: string) {
    forall i :: 0 <= i < |s| ==> IsTrimmable(s[i])
  }

  /** The index of the first char at or after `i` that trim keeps, or |s|. */
  function FirstKept(s: string, i: nat): (k: nat)
    requires i <= |s|
    ensures i <= k <= |s|
    ensures forall j :: i <= j < k ==> IsTrimmable(s[j])
    ensures k < |s| ==> !IsTrimmable(s[k])
    decreases |s| - i
  {
    if i < |s| && IsTrimmable(s[i]) then FirstKept(s, i + 1) else i
  }

  /** The index just past the last char before `j` and at or after `lo` that trim keeps, or `lo`. */
  function LastKept(s: string, lo: nat, j: nat): (k: nat)
    requires lo <= j <= |s|
    ensures lo <= k <= j
    ensures forall m :: k <= m < j ==> IsTrimmable(s[m])
    ensures k > lo ==> !IsTrimmable(s[k - 1])
    decreases j
  {
    if j > lo && IsTrimmable(s[j - 1]) then LastKept(s, lo, j - 1) else j
  }

  /** `r` is the infix of `s` starting at `i` with only trimmable chars around it. */
  predicate InfixBetweenTrimmable(s: string, r: string, i: int) {
    0 <= i <= |s| - |r| && r == s[i..i + |r|] && AllTrimmable(s[..i]) && AllTrimmable(s[i + |r|..])
  }

  /** String.trim: the longest infix of `s` that neither starts nor ends with a trimmable char. */
  function Trim(s: string): (r: string)
    ensures exists i :: InfixBetweenTrimmable(s, r, i)
    ensures |r| > 0 ==> !IsTrimmable(r[0]) && !IsTrimmable(r[|r| - 1])
    ensures r == "" <==> AllTrimmable(s)
  {
    var b := FirstKept(s, 0);
    var e := LastKept(s, b, |s|);
    TrimParts(s, b, e);
    s[b..e]
  }

  lemma TrimParts(s: string, b: nat, e: nat)
    requires b <= e <= |s|
    requires forall j :: 0 <= j < b ==> IsTrimmable(s[j])
    requires b < |s| ==> !IsTrimmable(s[b])
    requires forall m :: e <= m < |s| ==> IsTrimmable(s[m])
    ensures InfixBetweenTrimmable(s, s[b..e], b)
    ensures s[b..e] == "" <==> AllTrimmable(s)
  {
    assert AllTrimmable(s[..b]) by {
      forall k | 0 <= k < b
        ensures IsTrimmable(s[..b][k])
      {
        assert s[..b][k] == s[k];
      }
    }
    assert AllTrimmable(s[e..]) by {
      forall k | 0 <= k < |s| - e
        ensures IsTrimmable(s[e..][k])
      {
        assert s[e..][k] == s[e + k];
      }
    }
    if b == e {
      forall k | 0 <= k < |s|
        ensures IsTrimmable(s[k])
      {
        if k >= e {
          assert IsTrimmable(s[k]);
        }
      }
    } else {
      assert s[b..e][0] == s[b];
    }
  }

  /** `s.trim().isEmpty()`, stated directly: by Trim's contract the trimmed text is
      empty exactly when every char of `s` is trimmable. */
  predicate IsBlank(s: string) {
    AllTrimmable(s)
  }

  /** Case folding restricted to ASCII letters; Java's toLowerCase folds all of Unicode. */
  function LowerChar(c: char): (r: char)
    ensures !('A' <= r <= 'Z')
    ensures 'A' <= c <= 'Z' ==> r as int == c as int + 32
    ensures !('A' <= c <= 'Z') ==> r == c
  {
    if 'A' <= c <= 'Z' then (c as int - 'A' as int + 'a' as int) as char else c
  }

  function ToLower(s: string): (r: string)
    ensures |r| == |s|
    ensures forall i :: 0 <= i < |s| ==> r[i] == LowerChar(s[i])
    ensures forall i :: 0 <= i < |r| ==> !('A' <= r[i] <= 'Z')
  {
    seq(|s|, i requires 0 <= i < |s| => LowerChar(s[i]))
  }

  /** String.equalsIgnoreCase, over the ASCII letters. */
  predicate EqualsIgnoreCase(a: string, b: string) {
    ToLower(a) == ToLower(b)
  }

  predicate EndsWith(s: string, suffix: string) {
    |suffix| <= |s| && s[|s| - |suffix|..] == suffix
  }

  /** The two sides of a text joined at one separator character. */
  lemma JoinParts(x: string, sep: char, y: string)
    ensures var r := x + [sep] + y;
      |r| == |x| + 1 + |y| && r[0..|x|] == x && r[|x|] == sep && r[|x| + 1..|r|] == y
  {
  }

  /** A slice of a part placed at offset `off` is the same slice of the whole, shifted. */
  lemma SliceWithin(r: string, part: string, off: nat, i: nat, j: nat)
    requires off + |part| <= |r| && r[off..off + |part|] == part
    requires i <= j <= |part|
    ensures r[off + i..off + j] == part[i..j]
    ensures i < |part| ==> r[off + i] == part[i]
  {
    assert forall k :: 0 <= k < |part| ==> r[off + k] == part[k];
  }

  /** The two parts of a concatenation are its prefix and its suffix. */
  lemma Concat(x: string, y: string)
    ensures |x + y| == |x| + |y| && (x + y)[..|x|] == x && (x + y)[|x|..] == y
  {
  }

  /** Five parts joined: each sits at the offset the lengths before it add up to. */
  lemma JoinFive(a: string, b: string, c: string, d: string, e: string)
    requires |e| > 0
    ensures var r := a + b + c + d + e;
      var n := |a|; var m := n + |b|; var k := m + |c|; var q := k + |d|;
      && |r| == q + |e| && r[0..n] == a && r[n..m] == b && r[m..k] == c && r[k..q] == d
      && r[q..|r|] == e && r[|r| - 1] == e[|e| - 1] && EndsWith(r, e)
  {
    var r := a + b + c + d + e;
    assert r == (a + b + c + d) + e;
  }

  /** Seven parts joined: each sits at the offset the lengths before it add up to. */
  lemma JoinSeven(a: string, b: string, c: string, d: string, e: string, f: string, g: string)
    requires |g| > 0
    ensures var r := a + b + c + d + e + f + g;
      var n := |a|; var m := n + |b|; var k := m + |c|; var q := k + |d|; var u := q + |e|; var v := u + |f|;
      && |r| == v + |g| && r[0..n] == a && r[n..m] == b && r[m..k] == c && r[k..q] == d
      && r[q..u] == e && r[u..v] == f && r[v..|r|] == g && r[|r| - 1] == g[|g| - 1] && EndsWith(r, g)
  {
    var r := a + b + c + d + e + f + g;
    JoinFive(a, b, c, d, e + f + g);
    assert r == a + b + c + d + (e + f + g);
    JoinFive("", "", e, f, g);
    assert "" + "" + e + f + g == e + f + g;
  }

  /** Two parts that sit side by side at the start of a text form its prefix. */
  lemma SplitPrefix(r: string, x: string, y: string)
    requires |x| + |y| <= |r| && r[0..|x|] == x && r[|x|..|x| + |y|] == y
    ensures r[..|x| + |y|] == x + y
  {
    assert r[..|x| + |y|] == r[0..|x|] + r[|x|..|x| + |y|];
  }

  /** String.length(): the number of UTF-16 code units, two for a character outside the
      Basic Multilingual Plane. */
  function Utf16Length(s: string): (n: nat)
    ensures |s| <= n <= 2 * |s|
  {
    if |s| == 0 then 0
    else Utf16Length(s[..|s| - 1]) + (if s[|s| - 1] as int > 0xFFFF then 2 else 1)
  }

  /** Within the Basic Multilingual Plane the UTF-16 length is the character count. */
  lemma {:induction false} Utf16LengthOfBmp(s: string)
    requires forall i :: 0 <= i < |s| ==> s[i] as int <= 0xFFFF
    ensures Utf16Length(s) == |s|
  {
    if |s| > 0 {
      Utf16LengthOfBmp(s[..|s| - 1]);
    }
  }

  /** Every character outside the plane adds one unit: such a text of k characters has length 2k. */
  lemma {:induction false} Utf16LengthOfSupplementary(s: string)
    requires forall i :: 0 <= i < |s| ==> s[i] as int > 0xFFFF
    ensures Utf16Length(s) == 2 * |s|
  {
    if |s| > 0 {
      Utf16LengthOfSupplementary(s[..|s| - 1]);
    }
  }

  predicate OccursAt(text: string, key: string, i: nat) {
    i + |key| <= |text| && text[i..i + |key|] == key
  }

  /** The scan behind String.contains: try every start position from `i` on. */
  function ContainsFrom(text: string, key: string, i: nat): (r: bool)
    requires i <= |text|
    ensures r <==> exists j :: i <= j <= |text| && OccursAt(text, key, j)
    decreases |text| - i
  {
    if i + |key| > |text| then false
    else OccursAt(text, key, i) || ContainsFrom(text, key, i + 1)
  }

  function Contains(text: string, key: string): (r: bool)
    ensures r <==> exists j :: 0 <= j <= |text| && OccursAt(text, key, j)
  {
    ContainsFrom(text, key, 0)
  }

  /** The empty key occurs in every text, at position 0. */
  lemma ContainsEmpty(text: string)
    ensures Contains(text, "")
  {
    assert OccursAt(text, "", 0);
  }

  /** Decimal digits. */

  predicate IsDigit(c: char) {
    '0' <= c <= '9'
  }

  predicate AllDigits(s: string) {
    forall i :: 0 <= i < |s| ==> IsDigit(s[i])
  }

  function DigitChar(d: nat): (c: char)
    requires d < 10
    ensures IsDigit(c)
  {
    ('0' as int + d) as char
  }

  function DigitValue(c: char): (d: nat)
    requires IsDigit(c)
    ensures d < 10
  {
    c as int - '0' as int
  }

  /** Integer.toString of a non-negative value: no sign, no leading zeros. */
  function Digits(n: nat): (r: string)
    ensures |r| >= 1 && AllDigits(r)
    decreases n
  {
    if n < 10 then [DigitChar(n)] else Digits(n / 10) + [DigitChar(n % 10)]
  }

  function Zeros(k: nat): (r: string)
    ensures |r| == k
    ensures forall i :: 0 <= i < k ==> r[i] == '0'
  {
    seq(k, _ => '0')
  }

  /** String.format("%0wd", n) for n >= 0: the digits of n, left-padded with '0' to width w. */
  function PadDigits(n: nat, width: nat): (r: string)
    ensures AllDigits(r)
    ensures |r| >= width
  {
    var d := Digits(n);
    if |d| < width then Zeros(width - |d|) + d else d
  }

  /** Integer.parseInt restricted to strings of decimal digits. */
  function Value(s: string): nat
    requires AllDigits(s)
  {
    if |s| == 0 then 0 else 10 * Value(s[..|s| - 1]) + DigitValue(s[|s| - 1])
  }

  function Pow10(k: nat): (p: nat)
    ensures p >= 1
  {
    if k == 0 then 1 else 10 * Pow10(k - 1)
  }

  lemma {:induction false} ValueOfDigits(n: nat)
    ensures Value(Digits(n)) == n
    decreases n
  {
    if n >= 10 {
      var d := Digits(n);
      assert d[..|d| - 1] == Digits(n / 10);
      ValueOfDigits(n / 10);
    }
  }

  lemma {:induction false} ValueIgnoresLeadingZeros(k: nat, s: string)
    requires AllDigits(s)
    ensures Value(Zeros(k) + s) == Value(s)
    decreases |s|
  {
    var t := Zeros(k) + s;
    if |s| == 0 {
      assert t == Zeros(k);
      ZerosValue(k);
    } else {
      assert t[..|t| - 1] == Zeros(k) + s[..|s| - 1];
      ValueIgnoresLeadingZeros(k, s[..|s| - 1]);
    }
  }

  lemma {:induction false} ZerosValue(k: nat)
    ensures Value(Zeros(k)) == 0
  {
    if k > 0 {
      assert Zeros(k)[..k - 1] == Zeros(k - 1);
      ZerosValue(k - 1);
    }
  }

  /** Parsing a zero-padded decimal gives back the number it was printed from. */
  lemma PadDigitsRoundTrip(n: nat, width: nat)
    ensures Value(PadDigits(n, width)) == n
  {
    ValueOfDigits(n);
    if |Digits(n)| < width {
      ValueIgnoresLeadingZeros(width - |Digits(n)|, Digits(n));
    }
  }

  lemma {:induction false} DigitsLength(n: nat, width: nat)
    requires width >= 1 && n < Pow10(width)
    ensures |Digits(n)| <= width
    decreases n
  {
    if n >= 10 {
      assert n / 10 < Pow10(width - 1);
      DigitsLength(n / 10, width - 1);
    }
  }

  /** A value below 10^w printed with "%0wd" takes exactly w characters. */
  lemma PadDigitsLength(n: nat, width: nat)
    requires width >= 1 && n < Pow10(width)
    ensures |PadDigits(n, width)| == width
  {
    DigitsLength(n, width);
  }
}

=== FILE: time.dfy ===
/** java.time.LocalDate / LocalDateTime as plain field records.
    `isBefore` is the lexicographic order on (date, hour, minute, second, nano)
    and `equals` is datatype equality. */
module Time {
  import opened Text

  datatype Date = Date(year: int, month: int, day: int)

  datatype DateTime = DateTime(date: Date, hour: int, minute: int, second: int, nano: int)

  /** The ISO proleptic leap-year rule used by IsoChronology. */
  predicate IsLeapYear(y: int) {
    y % 4 == 0 && (y % 100 != 0 || y % 400 == 0)
  }

  function DaysInMonth(year: int, month: int): (n: int)
    requires 1 <= month <= 12
    ensures 28 <= n <= 31
  {
    if month == 2 then (if IsLeapYear(year) then 29 else 28)
    else if month == 4 || month == 6 || month == 9 || month == 11 then 30
    else 31
  }

  predicate ValidDate(d: Date) {
    1 <= d.month <= 12 && 1 <= d.day <= DaysInMonth(d.year, d.month)
  }

  predicate ValidDateTime(t: DateTime) {
    && ValidDate(t.date)
    && 0 <= t.hour < 24
    && 0 <= t.minute < 60
    && 0 <= t.second < 60
    && 0 <= t.nano < 1000000000
  }

  /** Every LocalDate and LocalDateTime value the JDK can build is a valid calendar point. */
  type LocalDate = d: Date | ValidDate(d) witness Date(2000, 1, 1)

  type LocalDateTime = t: DateTime | ValidDateTime(t) witness DateTime(Date(2000, 1, 1), 0, 0, 0, 0)

  predicate DateBefore(a: Date, b: Date) {
    || a.year < b.year
    || (a.year == b.year && a.month < b.month)
    || (a.year == b.year && a.month == b.month && a.day < b.day)
  }

  /** LocalDateTime.isBefore. */
  predicate IsBefore(a: DateTime, b: DateTime) {
    if a.date != b.date then DateBefore(a.date, b.date)
    else if a.hour != b.hour then a.hour < b.hour
    else if a.minute != b.minute then a.minute < b.minute
    else if a.second != b.second then a.second < b.second
    else a.nano < b.nano
  }

  lemma IsBeforeAsymmetric(a: DateTime, b: DateTime)
    ensures IsBefore(a, b) ==> !IsBefore(b, a)
  {
  }

  lemma IsBeforeTransitive(a: DateTime, b: DateTime, c: DateTime)
    requires IsBefore(a, b) && IsBefore(b, c)
    ensures IsBefore(a, c)
  {
  }

  /** Two instants are either equal or one is strictly before the other. */
  lemma IsBeforeTotal(a: DateTime, b: DateTime)
    ensures a == b || IsBefore(a, b) || IsBefore(b, a)
  {
  }

  // ------------------------------------------------------------ day numbers

  function DaysInYear(y: int): (n: int)
    ensures n == 365 || n == 366
  {
    if IsLeapYear(y) then 366 else 365
  }

  /** Days from 0000-01-01 to January 1st of `y`; negative for earlier years. */
  function DaysBeforeYear(y: int): int
    decreases if y >= 0 then y else -y
  {
    if y == 0 then 0
    else if y > 0 then DaysBeforeYear(y - 1) + DaysInYear(y - 1)
    else DaysBeforeYear(y + 1) - DaysInYear(y)
  }

  /** Days from January 1st to the first day of `month`. */
  function DaysBeforeMonth(y: int, month: int): (n: int)
    requires 1 <= month <= 12
    ensures n >= 28 * (month - 1)
    decreases month
  {
    if month == 1 then 0 else DaysBeforeMonth(y, month - 1) + DaysInMonth(y, month - 1)
  }

  /** The number of days from 0000-01-01 to `d`: LocalDate.toEpochDay up to a constant shift. */
  function DayNumber(d: LocalDate): int {
    DaysBeforeYear(d.year) + DaysBeforeMonth(d.year, d.month) + d.day - 1
  }

  lemma DaysBeforeNextYear(y: int)
    ensures DaysBeforeYear(y + 1) == DaysBeforeYear(y) + DaysInYear(y)
  {
    if y < -1 {
      assert DaysBeforeYear(y) == DaysBeforeYear(y + 1) - DaysInYear(y);
    }
  }

  lemma {:induction false} DaysBeforeYearGrows(y1: int, y2: int)
    requires y1 < y2
    ensures DaysBeforeYear(y1) + DaysInYear(y1) <= DaysBeforeYear(y2)
    decreases y2 - y1
  {
    DaysBeforeNextYear(y1);
    if y1 + 1 < y2 {
      DaysBeforeYearGrows(y1 + 1, y2);
    }
  }

  lemma {:induction false} DaysBeforeMonthGrows(y: int, m1: int, m2: int)
    requires 1 <= m1 < m2 <= 12
    ensures DaysBeforeMonth(y, m1) + DaysInMonth(y, m1) <= DaysBeforeMonth(y, m2)
    decreases m2
  {
    if m1 < m2 - 1 {
      DaysBeforeMonthGrows(y, m1, m2 - 1);
    }
  }

  /** January to November take 306 days plus February's; December adds 31. */
  lemma DaysBeforeDecember(y: int)
    ensures DaysBeforeMonth(y, 12) + 31 == DaysInYear(y)
  {
    assert DaysBeforeMonth(y, 2) == 31;
    assert DaysBeforeMonth(y, 3) == 31 + DaysInMonth(y, 2);
    assert DaysBeforeMonth(y, 4) == 62 + DaysInMonth(y, 2);
    assert DaysBeforeMonth(y, 5) == 92 + DaysInMonth(y, 2);
    assert DaysBeforeMonth(y, 6) == 123 + DaysInMonth(y, 2);
    assert DaysBeforeMonth(y, 7) == 153 + DaysInMonth(y, 2);
    assert DaysBeforeMonth(y, 8) == 184 + DaysInMonth(y, 2);
    assert DaysBeforeMonth(y, 9) == 215 + DaysInMonth(y, 2);
    assert DaysBeforeMonth(y, 10) == 245 + DaysInMonth(y, 2);
    assert DaysBeforeMonth(y, 11) == 276 + DaysInMonth(y, 2);
  }

  /** A date's offset within its year lies in [0, days in the year). */
  lemma DayOfYearBounds(d: LocalDate)
    ensures 0 <= DaysBeforeMonth(d.year, d.month) + d.day - 1 < DaysInYear(d.year)
  {
    DaysBeforeDecember(d.year);
    if d.month < 12 {
      DaysBeforeMonthGrows(d.year, d.month, 12);
    }
  }

  lemma DayNumberGrows(a: LocalDate, b: LocalDate)
    requires DateBefore(a, b)
    ensures DayNumber(a) < DayNumber(b)
  {
    DayOfYearBounds(a);
    DayOfYearBounds(b);
    if a.year < b.year {
      DaysBeforeYearGrows(a.year, b.year);
    } else if a.month < b.month {
      DaysBeforeMonthGrows(a.year, a.month, b.month);
    }
  }

  /** The calendar order is the order of day numbers. */
  lemma DayNumberOrder(a: LocalDate, b: LocalDate)
    ensures DateBefore(a, b) <==> DayNumber(a) < DayNumber(b)
    ensures a == b <==> DayNumber(a) == DayNumber(b)
  {
    if DateBefore(a, b) {
      DayNumberGrows(a, b);
    } else if a != b {
      DayNumberGrows(b, a);
    }
  }

  /** The calendar day after `d`. */
  function NextDay(d: LocalDate): (r: LocalDate)
    ensures DayNumber(r) == DayNumber(d) + 1
    ensures DateBefore(d, r)
    ensures r.day == 1 <==> d.day == DaysInMonth(d.year, d.month)
  {
    if d.day < DaysInMonth(d.year, d.month) then Date(d.year, d.month, d.day + 1)
    else if d.month < 12 then Date(d.year, d.month + 1, 1)
    else
      DaysBeforeNextYear(d.year);
      DaysBeforeDecember(d.year);
      Date(d.year + 1, 1, 1)
  }

  /** No date lies strictly between a day and the next. */
  lemma NextDayIsImmediate(d: LocalDate, x: LocalDate)
    ensures !(DateBefore(d, x) && DateBefore(x, NextDay(d)))
  {
    DayNumberOrder(d, x);
    DayNumberOrder(x, NextDay(d));
  }

  /** LocalDateTime.plusDays(n) for n >= 0: the same time of day, n calendar days later. */
  function PlusDays(t: LocalDateTime, n: nat): (r: LocalDateTime)
    ensures r.hour == t.hour && r.minute == t.minute && r.second == t.second && r.nano == t.nano
    ensures DayNumber(r.date) == DayNumber(t.date) + n
    ensures n > 0 ==> IsBefore(t, r)
  {
    if n == 0 then t
    else
      var p := PlusDays(t, n - 1);
      var r := p.(date := NextDay(p.date));
      if n > 1 then IsBeforeTransitive(t, p, r); r else r
  }

  // ------------------------------------------------------------- the time line

  /** LocalTime.toNanoOfDay. */
  function NanoOfDay(t: LocalDateTime): (n: int)
    ensures 0 <= n < 86400000000000
  {
    t.hour * 3600000000000 + t.minute * 60000000000 + t.second * 1000000000 + t.nano
  }

  /** Nanoseconds from 0000-01-01T00:00 to `t`. */
  function EpochNanos(t: LocalDateTime): int {
    DayNumber(t.date) * 86400000000000 + NanoOfDay(t)
  }

  /** isBefore, defined field by field, is the order of the two instants on the time line. */
  lemma IsBeforeIsEpochOrder(a: LocalDateTime, b: LocalDateTime)
    ensures IsBefore(a, b) <==> EpochNanos(a) < EpochNanos(b)
    ensures a == b <==> EpochNanos(a) == EpochNanos(b)
  {
    DayNumberOrder(a.date, b.date);
    DayNumberOrder(b.date, a.date);
  }

  /** Adding the same number of days to two instants keeps their order. */
  lemma PlusDaysKeepsOrder(a: LocalDateTime, b: LocalDateTime, n: nat)
    ensures IsBefore(a, b) <==> IsBefore(PlusDays(a, n), PlusDays(b, n))
  {
    IsBeforeIsEpochOrder(a, b);
    IsBeforeIsEpochOrder(PlusDays(a, n), PlusDays(b, n));
  }

  lemma {:induction false} PlusDaysLater(t: LocalDateTime, m: nat, n: nat)
    requires m < n
    ensures IsBefore(PlusDays(t, m), PlusDays(t, n))
    decreases n
  {
    var p := PlusDays(t, n - 1);
    assert IsBefore(p, PlusDays(t, n));
    if m < n - 1 {
      PlusDaysLater(t, m, n - 1);
      IsBeforeTransitive(PlusDays(t, m), p, PlusDays(t, n));
    }
  }

  /** A field printed with "%02d" from a value below 100 is two digits that read back as the value. */
  lemma TwoDigitField(n: nat)
    requires n < 100
    ensures |PadDigits(n, 2)| == 2 && AllDigits(PadDigits(n, 2)) && Value(PadDigits(n, 2)) == n
  {
    assert Pow10(2) == 100;
    PadDigitsLength(n, 2);
    PadDigitsRoundTrip(n, 2);
  }

  /** Two "%02d" fields around a separator, as in "HH:mm" and the "MM-dd" of a date. */
  function TwoFields(a: nat, sep: char, b: nat): (r: string)
    requires a < 100 && b < 100
    ensures |r| == 5 && r[2] == sep && IsDigit(r[4])
  {
    TwoDigitField(a);
    TwoDigitField(b);
    JoinParts(PadDigits(a, 2), sep, PadDigits(b, 2));
    PadDigits(a, 2) + [sep] + PadDigits(b, 2)
  }

  /** Both fields read back as the values printed. */
  lemma TwoFieldsReadBack(a: nat, sep: char, b: nat)
    requires a < 100 && b < 100
    ensures var r := TwoFields(a, sep, b);
      && AllDigits(r[0..2]) && Value(r[0..2]) == a
      && AllDigits(r[3..5]) && Value(r[3..5]) == b
  {
    TwoDigitField(a);
    TwoDigitField(b);
    JoinParts(PadDigits(a, 2), sep, PadDigits(b, 2));
  }

  /** "yyyy-MM-dd" with the year padded to at least four digits; for a year up to 9999 the
      month and day follow the four year digits as two fields around a '-'. */
  function DateText(year: nat, month: nat, day: nat): (r: string)
    requires month < 100 && day < 100
    ensures |r| >= 10 && IsDigit(r[|r| - 1])
    ensures year <= 9999 ==> |r| == 10 && r[4] == '-' && r[5..10] == TwoFields(month, '-', day)
  {
    var y := PadDigits(year, 4);
    var md := TwoFields(month, '-', day);
    JoinParts(y, '-', md);
    if year <= 9999 then
      assert Pow10(4) == 10000;
      PadDigitsLength(year, 4);
      y + "-" + md
    else y + "-" + md
  }

  /** For a year up to 9999 the first four characters read back as the year. */
  lemma DateTextYear(year: nat, month: nat, day: nat)
    requires year <= 9999 && month < 100 && day < 100
    ensures var r := DateText(year, month, day);
      AllDigits(r[0..4]) && Value(r[0..4]) == year
  {
    assert Pow10(4) == 10000;
    PadDigitsLength(year, 4);
    PadDigitsRoundTrip(year, 4);
    JoinParts(PadDigits(year, 4), '-', TwoFields(month, '-', day));
  }

  /** The fraction LocalTime.toString prints after the seconds: 3, 6 or 9 digits. */
  function IsoFraction(nano: nat): (r: string)
    requires 0 < nano < 1000000000
    ensures |r| >= 1 && AllDigits(r)
    ensures nano % 1000000 == 0 ==> |r| == 3 && Value(r) == nano / 1000000
    ensures nano % 1000000 != 0 && nano % 1000 == 0 ==> |r| == 6 && Value(r) == nano / 1000
    ensures nano % 1000 != 0 ==> |r| == 9 && Value(r) == nano
  {
    if nano % 1000000 == 0 then
      assert Pow10(3) == 1000;
      PadDigitsLength(nano / 1000000, 3);
      PadDigitsRoundTrip(nano / 1000000, 3);
      PadDigits(nano / 1000000, 3)
    else if nano % 1000 == 0 then
      assert Pow10(6) == 1000000;
      PadDigitsLength(nano / 1000, 6);
      PadDigitsRoundTrip(nano / 1000, 6);
      PadDigits(nano / 1000, 6)
    else
      assert Pow10(9) == 1000000000;
      PadDigitsLength(nano, 9);
      PadDigitsRoundTrip(nano, 9);
      PadDigits(nano, 9)
  }

  /** LocalTime.toString: HH:mm, then :ss when seconds or nanos are non-zero, then the fraction. */
  function IsoTime(t: LocalDateTime): (r: string)
    ensures |r| >= 5 && r[0..5] == TwoFields(t.hour, ':', t.minute) && IsDigit(r[|r| - 1])
    ensures |r| == 5 <==> t.second == 0 && t.nano == 0
    ensures t.second != 0 && t.nano == 0 ==>
      |r| == 8 && r[5] == ':' && AllDigits(r[6..]) && Value(r[6..]) == t.second
    ensures t.nano != 0 ==>
      && |r| == 9 + |IsoFraction(t.nano)| && r[5] == ':' && AllDigits(r[6..8]) && Value(r[6..8]) == t.second
      && r[8] == '.' && r[9..] == IsoFraction(t.nano)
  {
    var hm := TwoFields(t.hour, ':', t.minute);
    TwoDigitField(t.second);
    var ss := PadDigits(t.second, 2);
    if t.second == 0 && t.nano == 0 then hm
    else if t.nano == 0 then
      var r := hm + ":" + ss;
      assert r[6..] == ss;
      r
    else
      var r := hm + ":" + ss + "." + IsoFraction(t.nano);
      assert r[0..5] == hm;
      assert r[6..8] == ss;
      assert r[9..] == IsoFraction(t.nano);
      r
  }

  /** LocalDateTime.toString: the ISO date ("-" or "+" before years outside 0..9999), 'T', the
      ISO time, which carries ":ss" and a fraction when the seconds or nanos are non-zero.
      For a year in 0..9999 the date text (whose fields read back by DateText's contract)
      fills the first ten characters and the ISO time is everything after the 'T'. */
  function IsoString(t: LocalDateTime): (r: string)
    ensures |r| >= 16 && IsDigit(r[|r| - 1])
    ensures 0 <= t.date.year <= 9999 ==>
      && r[0..10] == DateText(t.date.year, t.date.month, t.date.day)
      && r[10] == 'T'
      && r[11..16] == TwoFields(t.hour, ':', t.minute)
    ensures t.date.year < 0 ==> r[0] == '-'
    ensures t.date.year > 9999 ==> r[0] == '+'
  {
    var y := t.date.year;
    var sign := if y < 0 then "-" else if y > 9999 then "+" else "";
    var date := sign + DateText(if y < 0 then -y else y, t.date.month, t.date.day);
    var time := IsoTime(t);
    JoinParts(date, 'T', time);
    var r := date + "T" + time;
    if 0 <= y <= 9999 then
      SliceWithin(r, time, |date| + 1, 0, 5);
      r
    else r
  }

  /** LocalDateTime.toString ends with the whole ISO time, seconds and fraction included when
      they are printed; for a year in 0..9999 that time is everything after the 'T'. */
  lemma IsoStringTime(t: LocalDateTime)
    ensures EndsWith(IsoString(t), IsoTime(t))
    ensures 0 <= t.date.year <= 9999 ==> IsoString(t)[11..|IsoString(t)|] == IsoTime(t)
  {
    var y := t.date.year;
    var date := (if y < 0 then "-" else if y > 9999 then "+" else "") + DateText(if y < 0 then -y else y, t.date.month, t.date.day);
    JoinParts(date, 'T', IsoTime(t));
    var r := date + "T" + IsoTime(t);
    assert r == IsoString(t);
    assert r[|r| - |IsoTime(t)|..] == r[|date| + 1..|r|];
  }

  /** The value the "yyyy" pattern letter prints: the year of the Common Era / BCE era. */
  function YearOfEra(year: int): (y: nat)
    ensures y >= 1
    ensures year >= 1 ==> y == year
    ensures year < 1 ==> y == 1 - year
  {
    if year >= 1 then year else 1 - year
  }

  /** "yyyy-MM-dd"; a year of era past 9999 gets a '+' sign. */
  function DisplayDate(d: LocalDate): (r: string)
    ensures |r| >= 10 && IsDigit(r[|r| - 1])
    ensures YearOfEra(d.year) <= 9999 ==> r == DateText(YearOfEra(d.year), d.month, d.day)
  {
    var y := YearOfEra(d.year);
    var r := (if y > 9999 then "+" else "") + DateText(y, d.month, d.day);
    assert r[|r| - 1] == DateText(y, d.month, d.day)[|DateText(y, d.month, d.day)| - 1];
    r
  }

  /** DateTimeFormatter.ofPattern("yyyy-MM-dd HH:mm"). For a year of era up to 9999 the text
      is 16 characters: the date text (its fields read back by DateText's contract), a space,
      and the "HH:mm" fields (likewise by TwoFields'). */
  function DisplayString(t: LocalDateTime): (r: string)
    ensures |r| >= 16 && IsDigit(r[|r| - 1])
    ensures YearOfEra(t.date.year) <= 9999 ==>
      && |r| == 16
      && r[0..10] == DateText(YearOfEra(t.date.year), t.date.month, t.date.day)
      && r[10] == ' '
      && r[11..16] == TwoFields(t.hour, ':', t.minute)
  {
    var d := DisplayDate(t.date);
    var hm := TwoFields(t.hour, ':', t.minute);
    JoinParts(d, ' ', hm);
    d + " " + hm
  }

  /** For a year of era up to 9999 the display text is 16 characters long and every
      numeric field reads back as the value it was printed from. */
  lemma DisplayStringFields(t: LocalDateTime)
    requires YearOfEra(t.date.year) <= 9999
    ensures var r := DisplayString(t);
      && |r| == 16
      && r[4] == '-' && r[7] == '-' && r[10] == ' ' && r[13] == ':'
      && AllDigits(r[0..4]) && Value(r[0..4]) == YearOfEra(t.date.year)
      && AllDigits(r[5..7]) && Value(r[5..7]) == t.date.month
      && AllDigits(r[8..10]) && Value(r[8..10]) == t.date.day
      && AllDigits(r[11..13]) && Value(r[11..13]) == t.hour
      && AllDigits(r[14..16]) && Value(r[14..16]) == t.minute
  {
    DisplayDateFields(t);
    ClockFieldsAt(DisplayString(t), 11, t.hour, ':', t.minute);
  }

  lemma DisplayDateFields(t: LocalDateTime)
    requires YearOfEra(t.date.year) <= 9999
    ensures var r := DisplayString(t);
      && |r| == 16 && r[4] == '-' && r[7] == '-' && r[10] == ' '
      && r[11..16] == TwoFields(t.hour, ':', t.minute)
      && AllDigits(r[0..4]) && Value(r[0..4]) == YearOfEra(t.date.year)
      && AllDigits(r[5..7]) && Value(r[5..7]) == t.date.month
      && AllDigits(r[8..10]) && Value(r[8..10]) == t.date.day
  {
    var r := DisplayString(t);
    var d := DateText(YearOfEra(t.date.year), t.date.month, t.date.day);
    DateTextYear(YearOfEra(t.date.year), t.date.month, t.date.day);
    TwoFieldsReadBack(t.date.month, '-', t.date.day);
    DateFieldsWithin(r, d, TwoFields(t.date.month, '-', t.date.day));
  }

  /** Two fields placed at offset `off` read back where they sit. */
  lemma ClockFieldsAt(r: string, off: nat, a: nat, sep: char, b: nat)
    requires a < 100 && b < 100
    requires off + 5 <= |r| && r[off..off + 5] == TwoFields(a, sep, b)
    ensures r[off + 2] == sep
    ensures AllDigits(r[off..off + 2]) && Value(r[off..off + 2]) == a
    ensures AllDigits(r[off + 3..off + 5]) && Value(r[off + 3..off + 5]) == b
  {
    var f := TwoFields(a, sep, b);
    TwoFieldsReadBack(a, sep, b);
    SliceWithin(r, f, off, 0, 2);
    SliceWithin(r, f, off, 2, 2);
    SliceWithin(r, f, off, 3, 5);
  }

  /** For a year in 0..9999 LocalDateTime.toString starts "yyyy-MM-ddTHH:mm" and every
      numeric field there reads back as the value it was printed from. */
  lemma IsoStringFields(t: LocalDateTime)
    requires 0 <= t.date.year <= 9999
    ensures var r := IsoString(t);
      && |r| >= 16
      && r[4] == '-' && r[7] == '-' && r[10] == 'T' && r[13] == ':'
      && AllDigits(r[0..4]) && Value(r[0..4]) == t.date.year
      && AllDigits(r[5..7]) && Value(r[5..7]) == t.date.month
      && AllDigits(r[8..10]) && Value(r[8..10]) == t.date.day
      && AllDigits(r[11..13]) && Value(r[11..13]) == t.hour
      && AllDigits(r[14..16]) && Value(r[14..16]) == t.minute
  {
    var r := IsoString(t);
    var d := DateText(t.date.year, t.date.month, t.date.day);
    DateTextYear(t.date.year, t.date.month, t.date.day);
    TwoFieldsReadBack(t.date.month, '-', t.date.day);
    DateFieldsWithin(r, d, TwoFields(t.date.month, '-', t.date.day));
    ClockFieldsAt(r, 11, t.hour, ':', t.minute);
  }

  /** A ten-character date text at the start of `r`: its year digits, its month-day fields and
      its separators sit at the same places in `r`. */
  lemma DateFieldsWithin(r: string, d: string, md: string)
    requires |d| == 10 && |md| == 5 && 10 <= |r| && r[0..10] == d && d[5..10] == md
    ensures r[0..4] == d[0..4] && r[4] == d[4] && r[5..10] == md
    ensures r[5..7] == md[0..2] && r[7] == md[2] && r[8..10] == md[3..5]
  {
    SliceWithin(r, d, 0, 0, 4);
    SliceWithin(r, d, 0, 4, 4);
    SliceWithin(r, d, 0, 5, 10);
    SliceWithin(r, md, 5, 0, 2);
    SliceWithin(r, md, 5, 2, 2);
    SliceWithin(r, md, 5, 3, 5);
  }
}

=== FILE: wrappers.dfy ===
/** Failure-compatible wrappers: Option stands in for a Java null, Result for an
    operation that either succeeds or reports one of its error conditions. */
module Wrappers {

  datatype Option<+T> = None | Some(value: T)

  datatype Result<+R, +E> = Success(value: R) | Failure(error: E)
}
